=== FILE: README.md ===
# pytorrent `Torrent`: loading torrent metadata, in Dafny

This project models `pytorrent/torrent.py` in Dafny. Its `Torrent` class is the first step of the pytorrent BitTorrent client. It fills in one torrent's description: the decoded metadata, the piece length and piece count, the SHA-1 info hash, the peer id, the tracker tiers, and the table of files with their total length. The metadata comes from one of two places:

- a local `.torrent` file;
- a magnet link. The link's `xt` parameters give the info hash, and the metadata is downloaded from two public caches, tried in order.

The model is split into modules:

- `Types`: bytes, `Option`, `Result`, and the error kinds. There is one error kind per kind of exception the loader lets escape, except the OverflowError described on the `Torrents.CeilDiv` line under "## Left out", and the filesystem errors of directory creation and `open`, which are not modelled.
- `Bencode`: the decoded bencode value. It also covers the two Python operations the loader applies to such values: indexing (`v[key]`) and iteration (`for x in v`).
- `Text`: `str.startswith`, `str.find`, `str.split` and `s.split(c)[-1]`, with Python's meaning.
- `Codec`: `bytes.fromhex`, `bytes.hex`, ASCII `str.lower` and `base64.b32decode` (the base-32 alphabet of section 6 of RFC 4648), all with their default behaviour. A base-32 encoder is included so the decoder can be checked against it.
- `Magnet`: the parts of `urlparse` and `parse_qs` the parser depends on, and `_extract_info_hash`. It is a method whose loop is proved against the function `MagnetInfoHash`. `MagnetInfoHash` is the corrected scan described under "## Findings": it skips a `urn:btih:` segment that the code as written would let abort the whole extraction. The code as written is `ExtractAsWritten`.
- `Mirrors`: `_download_torrent_from_info_hash`. It is a method over a `get` parameter standing in for the network. The method also returns the list of URLs it asked.
- `Layout`: POSIX `os.path.join`, and the file table that `init_files` builds from the `info` dictionary.
- `Torrents`:
  - the class `Torrent`, with the source's fields, constructor and load methods;
  - the pure functions `Trackers` (`get_trakers`) and `UriContents` (the dispatch of `load_from_uri`);
  - `Load`, the function that specifies `_load_from_torrent_file`.

Everything outside the process is a parameter, collected in an `Env` value:

- the regular files, as a map from path to bytes;
- the bencode decoder and encoder;
- SHA-1;
- the HTTP client;
- the clock text the peer id is hashed from.

Each load method ends with an `Outcome`: `Pass` where Python returns `self`, or `Fail(e)` where it raises. It is proved to agree with a pure specification function. When the load succeeds, the new fields are stated in full.

Apart from the simplifications listed under "## Left out", the model follows what the code does, including where that departs from the intended design. The one deliberate correction is the magnet scan, which follows the corrected behaviour (see "## Findings" and the `Magnet.ExtractInfoHash` line under "## Left out"). The departures from the design that the model keeps are:

- Loading into an object that was used before appends to `file_names`, and a multi-file layout adds to the old `total_length`. `Load` takes the old fields as input for this reason. The lemmas `FreshMultiFile` and `FreshSingleFile` state the result for a new object.
- The hash segment of a magnet link is not limited to 40 hexadecimal or 32 base-32 characters. Anything `bytes.fromhex` accepts is returned lower-cased, as `EmptyHashAccepted`, `HexShadowsBase32` and `SpacedHashAccepted` show. That includes the empty text, and hexadecimal pairs separated by ASCII whitespace (a `+` in the link becomes such a space). The whitespace is kept in the hash and so in the mirror URLs.
- A failed load can leave some fields already changed. The model states nothing about the fields after a failure, except where the failure comes before the first field is written.

## Model

| member | source | states |
|---|---|---|
| Magnet.ExtractInfoHash | pytorrent/torrent.py:68-88 | The result is `MagnetInfoHash(uri)`. A scheme other than `magnet` is refused before any `xt` value is read. Otherwise the hash is the one the first usable `xt` value yields, and there is an error when none yields one. |
| Magnet.MagnetInfoHash | pytorrent/torrent.py:68-88 | Definition: the corrected `_extract_info_hash`. A scheme other than `magnet` is an error; otherwise the first hash an `xt` value yields, or an error when none yields one. |
| Magnet.ExtractAsWritten | pytorrent/torrent.py:68-88 | Definition: `_extract_info_hash` as written. The scheme check, then the scan that stops with an error at the first value on which `b32decode` raises a plain ValueError. |
| Magnet.ScanAsWritten | pytorrent/torrent.py:74-88 | Definition: the loop as written. A value that yields a hash ends it; a value the source aborts on ends it with an error; any other value is skipped. |
| Magnet.Scheme | pytorrent/torrent.py:69-71 | Definition: `urlparse(uri).scheme`. The text before the first `:` when it starts with an ASCII letter and holds only scheme characters, lower-cased; empty otherwise. |
| Magnet.XtValues | pytorrent/torrent.py:73-74 | Definition: `parse_qs(urlparse(uri).query).get("xt", [])`. The query is the text between the first `?` and the first `#`; its `&`-separated fields named `xt` with a non-empty value give their values, `+` read as a space, in order. |
| Magnet.AbortsAsWritten | pytorrent/torrent.py:76-86 | Definition: the values on which the code as written raises: a `urn:btih:` value whose segment `bytes.fromhex` refuses and that is not ASCII, so that `b32decode` raises a ValueError outside `binascii.Error`. |
| Magnet.FirstDecoded | pytorrent/torrent.py:74-86 | Definition: the corrected scan's result, the first hash an `xt` value yields (`Decoded`), every value that yields none skipped. |
| Magnet.ScanXts | pytorrent/torrent.py:74-88 | The loop over the `xt` values returns the first hash any of them yields. It returns none when none does. |
| Magnet.FirstDecodedIsFirst | pytorrent/torrent.py:74-86 | There is no hash exactly when no `xt` value yields one. Otherwise the hash is the one yielded by some value, and every value before that one yields none. |
| Magnet.FirstSomeIsFirst | pytorrent/torrent.py:74-86 | The same first-result property for any candidate function: none exactly when no element has a result, else the result of an element all of whose predecessors have none. |
| Magnet.FirstDecodedNext | pytorrent/torrent.py:75-86 | Searching from position i gives value i's hash, or else the search from i+1. |
| Magnet.Decoded | pytorrent/torrent.py:76-86 | A value yields a hash only when it starts with `urn:btih:`. Every hash it yields is text `bytes.fromhex` accepts, with no upper-case letter. |
| Magnet.MagnetInfoHashIsHex | pytorrent/torrent.py:77-84 | Any hash extracted from a link is text `bytes.fromhex` accepts (hexadecimal digit pairs, possibly separated by ASCII whitespace), with no upper-case letter. This holds for both the hex path and the base-32 path. |
| Magnet.HexShadowsBase32 | pytorrent/torrent.py:78-84 | A 32-character base-32 hash written only with A–F is taken as 32 hexadecimal digits (16 bytes). Its base-32 reading would give 40 digits (20 bytes). |
| Magnet.EmptyHashAccepted | pytorrent/torrent.py:77-80 | `magnet:?xt=urn:btih:` yields the empty hash, since `bytes.fromhex("")` succeeds. |
| Magnet.SpacedHashAccepted | pytorrent/torrent.py:73-80 | `magnet:?xt=urn:btih:AB+CD` yields the hash `ab cd`: `parse_qs` turns the `+` into a space, `bytes.fromhex` skips it, and the hash keeps it. |
| Magnet.MagnetPrefixScheme | pytorrent/torrent.py:69-71 | A URI that starts with `magnet:?` has scheme `magnet`, and its query part follows the `:`. |
| Magnet.BtihSegment | pytorrent/torrent.py:76-77 | For `urn:btih:` followed by text without `:`, the part after the last `:` is that text. |
| Magnet.XtField | pytorrent/torrent.py:73-74 | The field `xt=v` with a non-empty `v` contributes `v` with every `+` read as a space. |
| Magnet.XtsOfAppend | pytorrent/torrent.py:73-74 | The `xt` values of two field lists put together are the values of the first, then of the second. |
| Magnet.QueryXtsJoin | pytorrent/torrent.py:73-74 | The `xt` values of `a&b` are those of `a` followed by those of `b`. |
| Magnet.SingleXt | pytorrent/torrent.py:73-74 | The query `xt=v`, with `v` non-empty and without `&`, has the single `xt` value `v` with every `+` read as a space. |
| Magnet.OneXtLink | pytorrent/torrent.py:69-74 | `magnet:?xt=V`, with V non-empty and without `&` or `#`, has scheme `magnet` and the single `xt` value V with every `+` read as a space. |
| Magnet.TwoXtLink | pytorrent/torrent.py:69-75 | `magnet:?xt=A&xt=B` has scheme `magnet` and the `xt` values A then B, in that order. |
| Magnet.AsWrittenAgrees | pytorrent/torrent.py:74-86 | When no value has a non-ASCII, non-hexadecimal `urn:btih:` segment, the code as written and the corrected scan give the same result. |
| Magnet.NonAsciiValue | pytorrent/torrent.py:82-86 | `urn:btih:é` makes `b32decode` raise a ValueError that is not a `binascii.Error`, and it yields no hash. |
| Magnet.HexValue | pytorrent/torrent.py:77-80 | `urn:btih:ab` yields the hash `ab`. |
| Magnet.NonAsciiValueAborts | pytorrent/torrent.py:82-86 | For `magnet:?xt=urn:btih:é&xt=urn:btih:ab`, the code as written raises, and the corrected scan returns `ab`. |
| Text.SplitJoin | pytorrent/torrent.py:73-77 | `split` of `a + c + b` is the split of `a` followed by the split of `b`. |
| Text.IndexOfFirst | pytorrent/torrent.py:69-73 | No separator occurs before the position `find` reports. |
| Text.IndexOfIs | pytorrent/torrent.py:69-73 | A position that holds the separator (or is the end), with no separator before it, is what `find` reports. |
| Text.IndexOfAppend | pytorrent/torrent.py:73 | The first separator in `a + rest` is the first in `a`, or else it is `\|a\|` plus the first in `rest`. |
| Codec.Hex | pytorrent/torrent.py:84 | `bytes.hex` gives two lower-case hexadecimal digits per byte. |
| Codec.FromHexOfHex | pytorrent/torrent.py:84 | `bytes.fromhex(b.hex())` gives back `b`. |
| Codec.FromHexOfLower | pytorrent/torrent.py:79-80 | Lower-casing does not change what `bytes.fromhex` accepts or returns. The result has no upper-case letter. |
| Codec.FromHexOfDigits | pytorrent/torrent.py:79 | An even number of hexadecimal digits is accepted, one byte per pair. |
| Codec.Base32RoundTrip | pytorrent/torrent.py:83 | `b32decode` of the base-32 text of whole five-byte groups gives the bytes back. |
| Codec.Base32DecodeUnpadded | pytorrent/torrent.py:83 | Unpadded text of whole eight-digit groups decodes group by group. |
| Codec.Base32InfoHash | pytorrent/torrent.py:83-84 | 32 base-32 characters decode to 20 bytes, whose hex form has 40 digits. |
| Codec.ValueOfDigits | pytorrent/torrent.py:83 | Writing a number below b^n as n base-b digits and reading them back gives the number (the regrouping inside `b32decode`). |
| Codec.DigitsOfValue | pytorrent/torrent.py:83 | Reading a digit string and writing the number out again gives the same digits. |
| Codec.QuantaOfGroupDigits | pytorrent/torrent.py:83 | Regrouping five bytes into eight base-32 digits and back gives the bytes. |
| Mirrors.DownloadTorrent | pytorrent/torrent.py:90-108 | The mirrors are asked in their fixed order. The result is the body of the first response with status 200 and a non-empty body, and no mirror after it is asked. A transport error, another status or an empty body moves on. When every mirror fails, all were asked and the result is MetadataUnavailable. |
| Mirrors.FirstAccepted | pytorrent/torrent.py:96-104 | It finds the position of the first accepted response (or the end), with no accepted response before it. |
| Layout.JoinPathSplits | pytorrent/torrent.py:118 | Joining plain segments under a directory and splitting the result at `/` gives the directory's pieces followed by exactly those segments. |
| Layout.JoinPlain | pytorrent/torrent.py:118 | For a non-empty `root` that does not end in `/` and a plain segment `s` (non-empty, without `/`), `os.path.join(root, s)` is `root/s`, and splitting it at `/` gives the pieces of `root` followed by `s`. |
| Layout.EntriesOfPointwise | pytorrent/torrent.py:117-124 | The file table exists exactly when every element of `files` has an entry. It then has one entry per element, in order. |
| Layout.EntriesOfNext | pytorrent/torrent.py:117-124 | The entries of one more element are the previous entries plus its entry. |
| Layout.EntriesOfErrorSticks | pytorrent/torrent.py:117-124 | The first element without an entry decides the error, whatever follows it. |
| Layout.SumLengthsNext | pytorrent/torrent.py:124 | Adding an entry adds its length to the total. |
| Layout.SumLengthsAppend | pytorrent/torrent.py:124 | The total length of two lists of entries is the sum of their totals. |
| Layout.MultiFileEntries | pytorrent/torrent.py:113-124 | A multi-file layout has one entry per element of `files`. Each entry is that element's path joined under `name`, with its length. |
| Text.AfterLast | pytorrent/torrent.py:77 | `s.split(c)[-1]` is a suffix of `s` without `c`, and the character before it, if any, is `c`. |
| Codec.FromHex | pytorrent/torrent.py:79 | Definition: `bytes.fromhex`. Pairs of hexadecimal digits in either case, ASCII whitespace allowed before each pair and at the end; anything else is the ValueError. |
| Codec.Base32Decode | pytorrent/torrent.py:83 | Definition: `base64.b32decode` with its defaults. The length must be a multiple of 8, the `=` padding one of 0, 1, 3, 4 or 6 characters, and the rest base-32 digits; each group of eight digits gives five bytes, and the bytes the padding stands for are dropped. |
| Codec.Quanta | pytorrent/torrent.py:83 | Every group of eight base-32 digits gives exactly five bytes. |
| Codec.StripPadding | pytorrent/torrent.py:83 | `s.rstrip('=')` is a prefix of `s` that does not end with `=`, and everything removed is `=`. |
| Mirrors.Fetched | pytorrent/torrent.py:96-108 | Definition: the body of the first accepted outcome among the URLs, or MetadataUnavailable when none is accepted. |
| Layout.JoinPath | pytorrent/torrent.py:118 | Definition: `os.path.join(path, *segments)` on POSIX, one segment at a time. |
| Layout.EntryOf | pytorrent/torrent.py:118-123 | Definition: the entry of one element of `files`: its `path` joined under the root, with its integer `length`; a missing or ill-shaped field is Malformed. |
| Layout.EntriesOf | pytorrent/torrent.py:117-124 | Definition: the entries of the elements of `files` in order; the first element without an entry decides the error. |
| Layout.LayoutOf | pytorrent/torrent.py:110-128 | Definition: with a `files` key, the entries of its elements under the directory `name`; otherwise the single file `name` with its `length`. |
| Layout.Appended | pytorrent/torrent.py:117-124 | Definition: what the loop has appended when it stops. All the entries when every element has one, otherwise those of the elements before the first one without. |
| Layout.AppendedAt | pytorrent/torrent.py:117-124 | When element `i` is the first without an entry, what the loop has appended is the entries of the elements before `i`. |
| Layout.StopsAt | pytorrent/torrent.py:117-124 | When element `i` is the first without an entry, the whole `files` list fails with that element's error, and what the loop appended is the entries before `i`. |
| Layout.AppendedBeforeFailure | pytorrent/torrent.py:117-124 | When `files` has no complete table, there is a first element without an entry, and what was appended is exactly the entries of the elements before it. |
| Layout.AddedUntilError | pytorrent/torrent.py:110-128 | Definition: what `init_files` has appended when the layout is malformed. Nothing when the failure comes before the loop or in the single-file branch, otherwise `Appended`. |
| Text.StartsWith | pytorrent/torrent.py:42 | Definition: `s.startswith(prefix)`: `s` is at least as long as `prefix` and begins with it. |
| Text.IndexOf | pytorrent/torrent.py:73-74 | `s.find(c)`, with the length of `s` standing for -1: the result is at most `|s|`, and below `|s|` it is a position of `c`. |
| Text.Split | pytorrent/torrent.py:73-77 | `s.split(c)` is never empty; it is the text up to the first `c` followed by the split of the rest, or `[s]` when there is no `c`. |
| Codec.Lower | pytorrent/torrent.py:80 | Definition: `str.lower()` on ASCII letters, each upper-case letter mapped to its lower-case form and every other character kept. |
| Bencode.Field | pytorrent/torrent.py:52-53 | Definition: `v[key]` on a decoded value: the entry of a dictionary holding `key`, otherwise the KeyError or TypeError (Malformed). |
| Bencode.Elements | pytorrent/torrent.py:117 | Definition: what `for x in v` hands the loop body: the items of a list, nothing for an empty text or dictionary, and Malformed when the body would raise at once (a non-empty text or dictionary) or `v` is not iterable (an integer). |
| Mirrors.MirrorUrls | pytorrent/torrent.py:91-94 | Definition: the two mirror URLs in the order they are tried: `https://itorrents.org/torrent/<hash>.torrent`, then `https://btcache.me/torrent/<hash>`. |
| Mirrors.Accepted | pytorrent/torrent.py:103 | Definition: a response is taken when its status is 200 and its body is non-empty; a transport error never is. |
| Layout.RootOf | pytorrent/torrent.py:111 | Definition: `info["name"]` when it is text, otherwise Malformed. |
| Layout.Segments | pytorrent/torrent.py:118 | Definition: the segments `*file["path"]` unpacks: the items of a list of texts, the characters of a text, nothing for an empty dictionary; Malformed otherwise. |
| Layout.Added | pytorrent/torrent.py:117-127 | Definition: the entries a layout appends to `file_names`: all entries of a multi-file layout, the one entry of a single file. |
| Layout.TotalAfter | pytorrent/torrent.py:124-128 | Definition: `total_length` after the layout: the old total plus the lengths for a multi-file layout, the file's length for a single file. |
| Layout.SumLengths | pytorrent/torrent.py:124 | Definition: the sum of the entries' lengths, the amount the loop adds to `total_length`. |
| Torrents.PathContents | pytorrent/torrent.py:28-30 | Definition: `load_from_path` up to the decoding: NotFound for a path that is not a regular file, Undecodable when the decoder refuses its bytes, otherwise the decoded contents. |
| Torrents.MagnetContents | pytorrent/torrent.py:34-37 | Definition: `load_from_magnet` up to the decoding: the link's hash (`MagnetInfoHash`), then the first accepted mirror body (`Fetched`), then the decoded contents; each step's error stops it. |
| Torrents.PeerIdOf | pytorrent/torrent.py:136-138 | Definition: `generate_peer_id`: SHA-1 of the clock text, which is a parameter. |
| Torrents.Trackers | pytorrent/torrent.py:130-134 | Definition: `get_trakers`. `announce-list` when present, else `[[announce]]`, else the KeyError. |
| Torrents.Load | pytorrent/torrent.py:50-66 | Definition: `_load_from_torrent_file`. The checks in the order the source meets them (`info`, `piece length`, `pieces`, trackers, layout, zero piece length, the two asserts), then every field. |
| Torrents.UriContents | pytorrent/torrent.py:41-48 | Definition: `magnet:?` URIs go to the mirrors; another URI that is not a regular file is NotFound; otherwise the decoded file. |
| Torrents.TrackerTiers | pytorrent/torrent.py:130-134 | The tiers are `announce-list` verbatim when it is present. Otherwise they are one tier holding the single `announce`. There are none (the lookup raises) exactly when both keys are missing. |
| Torrents.CeilDiv | pytorrent/torrent.py:59 | The piece count is the ceiling of total length / piece length: the least n with n·d ≥ total for a positive d. For a negative d it is the least n with n·d ≤ total. |
| Torrents.PieceCountExamples | pytorrent/torrent.py:59 | 1048576 / 262144 gives 4 pieces, and 1048577 / 262144 gives 5. |
| Torrents.LoadedIsComplete | pytorrent/torrent.py:59-64 | After a successful load the total length is positive, there is at least one file, and the piece length is non-zero. For a positive piece length the piece count is the rounded-up quotient, at least 1. |
| Torrents.FreshMultiFile | pytorrent/torrent.py:113-124 | From a new object, a multi-file load lists each element of `files` once, in order, as its joined path and length. The total length is the sum of the lengths. |
| Torrents.FreshSingleFile | pytorrent/torrent.py:126-128 | From a new object, a single-file load lists exactly `(name, length)`, and the total length is that length, which is positive. |
| Torrents.MagnetPrefixPassesScheme | pytorrent/torrent.py:41-43 | A link sent down the magnet path always passes the scheme check. Its hash is the first one its `xt` values yield. |
| Torrents.Dispatch | pytorrent/torrent.py:41-48 | A `magnet:?` URI is loaded from the mirrors whatever files exist. Any other URI is loaded from its file, never from the network, and fails with NotFound exactly when there is no such file. |
| Torrents.Torrent.constructor | pytorrent/torrent.py:17-26 | A new object has the source's initial field values. |
| Torrents.Torrent.InitFiles | pytorrent/torrent.py:110-128 | `fileNames` becomes the old list plus the layout's entries. `totalLength` grows by their lengths for a multi-file layout, or is set to the length for a single file. A malformed `info` gives the matching error, and then `fileNames` holds the old list plus the entries of the elements of `files` before the first bad one (`InfoAddedUntilError`), with `totalLength` grown by their lengths. Only those two fields change. |
| Torrents.Torrent.AppendEntries | pytorrent/torrent.py:117-124 | The loop appends each element's entry and adds its length, in order. The first element without an entry ends it with that error, leaving the entries of the elements before it appended and their lengths added (`Appended`). |
| Torrents.Torrent.LoadFromTorrentFile | pytorrent/torrent.py:50-66 | The outcome is the one `Load` gives for the old fields. On success every field is the one `Load` computes: the info hash is SHA-1 of the re-encoded `info`, the peer id is SHA-1 of the clock text, and the tiers, files, totals and piece count are as above. |
| Torrents.Torrent.LoadFromPath | pytorrent/torrent.py:28-32 | The file's bytes are decoded and loaded. A missing file or undecodable bytes fail before any field changes. |
| Torrents.Torrent.LoadFromMagnet | pytorrent/torrent.py:34-39 | The link's hash, then the first mirror's metadata, then the load. Any failure before decoding leaves the object unchanged. |
| Torrents.Torrent.LoadFromUri | pytorrent/torrent.py:41-48 | A `magnet:?` URI goes to the magnet path. Another URI must be an existing file (else NotFound) and goes to the file path. The outcome and fields are those of `UriContents` followed by `Load`. |

## Left out

- The bencode codec (`bdecode`, `bencode`) and SHA-1 are parameters of `Env`. Their behaviour is not modelled, so `infoHash` is stated as `sha1(encode(info))` for whatever those functions are.
- Byte strings and text are one type. Bencoded strings are modelled as text, as the bencode library hands them over.
- The clock: `generate_peer_id` is modelled as SHA-1 of a clock text that the caller supplies.
- The filesystem:
  - The OSErrors of `os.mkdir` and `os.makedirs` (lines 115 and 121) and of `open` other than a missing file (PermissionError, IsADirectoryError, line 29) have no error kind. For example, a multi-file torrent whose `name` is empty makes `os.mkdir("")` raise, while the model loads it.
  - `os.path.isfile` and `open` are a map from existing regular files to their bytes.
  - The directory creation in `init_files` (`os.mkdir`, `os.makedirs`) is not modelled, and neither are its failures.
- Logging, the 10-second HTTP timeout, and the kinds of transport error are not modelled. Any exception from `requests.get` is one `TransportError`.
- Magnet.XtValues: `parse_qs` percent-decoding (`%xx`) of names and values is not modelled. A `+` does become a space.
- Magnet.Scheme: `urlsplit`'s removal of tab and newline characters, and its stripping of leading C0 control characters and spaces, are not modelled. Neither are its validation of bracketed network locations and the ValueError `_checknetloc` raises for some non-ASCII network locations. A link starting with `magnet:?` has no network location, so the last two never apply to the dispatch of `load_from_uri`.
- Python version: the library behaviour modelled is that of Python 3.9.2 and later (3.12 in particular). That means `bytes.fromhex` skipping any ASCII whitespace between pairs (3.7 and later) and `parse_qs` splitting only at `&` (3.9.2 and later). Older interpreters differ in these points.
- The two `assert` statements of `_load_from_torrent_file` (lines 63-64) are modelled as the error `InvalidLayout`. That is the default interpreter; under `python -O` they are removed and the load goes on with an empty file table or a zero total.
- Torrents.CeilDiv: the ceiling is taken over exact rationals, not Python's float division, so rounding of very large totals is not modelled. Neither is the OverflowError that line 59 raises when the quotient is beyond the float range (a total of 10**400 with a piece length of 1, say); no error kind stands for it.
- Layout.Segments: a `path` given as a non-empty dictionary is refused as malformed. Python would join its keys in insertion order, which the map-based model does not keep.
- Layout.RootOf: a `name` that is not text is refused as malformed. In single-file mode Python would store it as the path without complaint.
- Torrents.Load: a `piece length` that is not an integer is reported when the field is read. Python reports it at the division on line 59. The error kind is the same, and only the partly changed fields of the failed object differ.
- Torrents.Torrent.LoadFromTorrentFile: after a failure the fields are not stated. Python leaves the fields it had already assigned.
- Torrents.Torrent.AppendEntries: an element whose `length` is present but not an integer ends the loop before its entry is appended. Python appends the entry on line 123 and only then raises TypeError at the `+=` on line 124, so `file_names` holds one entry more than the model states.
- Torrents.Torrent.InitFiles: the same holds in the multi-file branch. In the single-file branch a `length` that is not an integer is refused before anything is appended, while Python appends the entry, sets `total_length` to it, and raises only at the division on line 59.
- A magnet link's downloaded metadata is not checked against the link's hash. The source does not check it either.
- Magnet.ExtractInfoHash: this method, its loop `Magnet.ScanXts` and the per-value result `Magnet.Decoded` (None on the non-ASCII segment where the source raises), and through them `Torrents.MagnetContents`, `Torrents.UriContents`, `Torrents.Torrent.LoadFromMagnet` and `Torrents.Torrent.LoadFromUri`, follows the corrected scan (`Magnet.MagnetInfoHash`). A `urn:btih:` segment that is neither accepted by `bytes.fromhex` nor ASCII is skipped. The code as written raises a ValueError out of the whole extraction, so for `magnet:?xt=urn:btih:é&xt=urn:btih:ab` the model loads where the program fails. The code as written is `Magnet.ExtractAsWritten`, and `Magnet.AsWrittenAgrees` shows both agree on every other link.

## Findings

| source | as written | input that shows it | evidently intended | confidence | as-written member | corrected member |
|---|---|---|---|---|---|---|
| pytorrent/torrent.py:82-86 | `base64.b32decode` raises a plain ValueError for a non-ASCII segment. The `except binascii.Error` clause does not catch it, so the whole extraction aborts. | `magnet:?xt=urn:btih:é&xt=urn:btih:ab` | an undecodable segment is skipped and the next `xt` value is tried, so the hash is `ab` | high; not executed | Magnet.ExtractAsWritten, Magnet.NonAsciiValueAborts | Magnet.MagnetInfoHash, Magnet.ExtractInfoHash, Magnet.FirstDecodedIsFirst |

=== FILE: bencode.dfy ===
/** The decoded form of bencoded data, as the bencode library hands it over. */
module Bencode {
  import opened Types

  /** A decoded bencode value. Byte strings are modelled as text; dictionary
      keys are text and their order plays no part in the model. */
  datatype BValue =
    | BInt(n: int)
    | BStr(s: string)
    | BList(items: seq<BValue>)
    | BDict(entries: map<string, BValue>)

  /** `v[key]` in Python: a missing key is a KeyError, a value that is not a
      dictionary a TypeError. */
  function Field(v: BValue, key: string): Result<BValue>
  {
    if v.BDict? && key in v.entries then Ok(v.entries[key]) else Err(Malformed)
  }

  /** The elements a Python `for` loop visits in `v`, as far as the loop body
      can use them: a list gives its items; an empty string or dictionary
      gives none; a non-empty string or dictionary gives text elements, on
      which the body's `["path"]` is a TypeError; an integer is not iterable. */
  function Elements(v: BValue): Result<seq<BValue>>
  {
    match v
    case BList(items) => Ok(items)
    case BStr(s) => if s == [] then Ok([]) else Err(Malformed)
    case BDict(m) => if m == map[] then Ok([]) else Err(Malformed)
    case BInt(_) => Err(Malformed)
  }
}

=== FILE: codec.dfy ===
/** The text encodings the magnet parser relies on, as Python's standard
    library implements them: `bytes.fromhex`, `bytes.hex`, `str.lower` on
    ASCII text, and `base64.b32decode` (the base-32 alphabet of section 6 of
    RFC 4648, upper case only, padded to whole groups of eight characters).
    The behaviour is that of Python 3.7 and later, where `bytes.fromhex`
    skips any ASCII whitespace between pairs. */
module Codec {
  import opened Types

  // ------------------------------------------------------------------
  // Positional notation

  function Pow(b: nat, n: nat): nat
  {
    if n == 0 then 1 else b * Pow(b, n - 1)
  }

  /** The number a big-endian digit string denotes in base `b`. */
  function Value(ds: seq<nat>, b: nat): nat
  {
    if ds == [] then 0 else Value(ds[..|ds| - 1], b) * b + ds[|ds| - 1]
  }

  /** The `n` low-order base-`b` digits of `v`, most significant first. */
  function Digits(v: nat, b: nat, n: nat): (ds: seq<nat>)
    requires b >= 2
    ensures |ds| == n
    ensures forall i :: 0 <= i < n ==> ds[i] < b
  {
    if n == 0 then [] else Digits(v / b, b, n - 1) + [v % b]
  }

  lemma MulSign(d: int, b: int)
    requires b > 0
    ensures d >= 1 ==> d * b >= b
    ensures d <= -1 ==> d * b <= -b
  {
  }

  lemma MulMonotone(x: int, y: int, b: int)
    requires 0 <= b
    ensures x <= y ==> x * b <= y * b
  {
  }

  /** Division by `b` undoes `q * b + r` when `r < b`. */
  lemma DivMod(q: nat, b: nat, r: nat)
    requires 0 < b && r < b
    ensures (q * b + r) / b == q && (q * b + r) % b == r
  {
    var x := q * b + r;
    var k, m := x / b, x % b;
    assert x == k * b + m;
    var d := k - q;
    assert d * b == k * b - q * b;
    assert d * b == r - m;
    MulSign(d, b);
  }

  lemma DivModIdentity(v: nat, b: nat)
    requires 0 < b
    ensures v == (v / b) * b + v % b
  {
  }

  lemma QuotientBound(v: nat, b: nat, p: nat)
    requires 0 < b && v < b * p
    ensures v / b < p
  {
    assert v == (v / b) * b + v % b;
    MulMonotone(p, v / b, b);
  }

  /** Reading back the `n` digits of a number below `b^n` gives the number. */
  lemma {:induction false} ValueOfDigits(v: nat, b: nat, n: nat)
    requires b >= 2 && v < Pow(b, n)
    ensures Value(Digits(v, b, n), b) == v
    decreases n
  {
    if n > 0 {
      var q, r := v / b, v % b;
      var t := Digits(q, b, n - 1);
      var ds := Digits(v, b, n);
      assert ds == t + [r];
      assert ds[..n - 1] == t;
      assert Value(ds, b) == Value(t, b) * b + r;
      assert Pow(b, n) == b * Pow(b, n - 1);
      QuotientBound(v, b, Pow(b, n - 1));
      ValueOfDigits(q, b, n - 1);
      DivModIdentity(v, b);
    }
  }

  /** Writing out the number a digit string denotes gives the digit string back. */
  lemma {:induction false} DigitsOfValue(ds: seq<nat>, b: nat)
    requires b >= 2 && forall i :: 0 <= i < |ds| ==> ds[i] < b
    ensures Digits(Value(ds, b), b, |ds|) == ds
  {
    if ds != [] {
      var init := ds[..|ds| - 1];
      DivMod(Value(init, b), b, ds[|ds| - 1]);
      DigitsOfValue(init, b);
    }
  }

  /** `n` digits denote a number below `b^n`. */
  lemma {:induction false} ValueBound(ds: seq<nat>, b: nat)
    requires b >= 2 && forall i :: 0 <= i < |ds| ==> ds[i] < b
    ensures Value(ds, b) < Pow(b, |ds|)
  {
    if ds != [] {
      var init := ds[..|ds| - 1];
      ValueBound(init, b);
      var p, v := Pow(b, |ds| - 1), Value(init, b);
      assert Value(ds, b) == v * b + ds[|ds| - 1];
      MulMonotone(v, p - 1, b);
      assert (p - 1) * b == p * b - b;
      assert Pow(b, |ds|) == p * b;
    }
  }

  // ------------------------------------------------------------------
  // Hexadecimal text

  /** ASCII whitespace as CPython's `Py_ISSPACE` sees it: space and \t \n \v \f \r. */
  predicate IsSpace(c: char)
  {
    c == ' ' || '\t' <= c <= '\r'
  }

  predicate IsHexDigit(c: char)
  {
    '0' <= c <= '9' || 'a' <= c <= 'f' || 'A' <= c <= 'F'
  }

  function HexDigitValue(c: char): nat
    requires IsHexDigit(c)
  {
    if '0' <= c <= '9' then c as nat - '0' as nat
    else if 'a' <= c <= 'f' then c as nat - 'a' as nat + 10
    else c as nat - 'A' as nat + 10
  }

  /** `bytes.fromhex(s)`: pairs of hexadecimal digits in either case, with
      ASCII whitespace allowed before each pair and at the end but never
      inside a pair; None is the ValueError. */
  function FromHex(s: string): Option<seq<byte>>
    decreases |s|
  {
    if s == [] then Some([])
    else if IsSpace(s[0]) then FromHex(s[1..])
    else if |s| >= 2 && IsHexDigit(s[0]) && IsHexDigit(s[1]) then
      match FromHex(s[2..])
      case None => None
      case Some(rest) => Some([(HexDigitValue(s[0]) * 16 + HexDigitValue(s[1])) as byte] + rest)
    else None
  }

  /** Text made of an even number of hexadecimal digits is accepted, one
      byte for each pair. */
  lemma {:induction false} FromHexOfDigits(s: string)
    requires |s| % 2 == 0 && forall i :: 0 <= i < |s| ==> IsHexDigit(s[i])
    ensures FromHex(s).Some? && |FromHex(s).value| == |s| / 2
    decreases |s|
  {
    if s != [] {
      FromHexOfDigits(s[2..]);
    }
  }

  /** Digits and lower-case letters `a` to `f` only. */
  predicate IsLowerHex(s: string)
  {
    forall i :: 0 <= i < |s| ==> '0' <= s[i] <= '9' || 'a' <= s[i] <= 'f'
  }

  function HexChar(d: nat): char
    requires d < 16
  {
    if d < 10 then ('0' as int + d) as char else ('a' as int + d - 10) as char
  }

  /** `bytes.hex()`: two lower-case hexadecimal digits per byte. */
  function Hex(bs: seq<byte>): (r: string)
    ensures |r| == 2 * |bs|
    ensures IsLowerHex(r)
  {
    if bs == [] then ""
    else [HexChar(bs[0] as nat / 16), HexChar(bs[0] as nat % 16)] + Hex(bs[1..])
  }

  /** The text `bytes.hex()` produces is accepted by `bytes.fromhex()` and
      denotes exactly the bytes it was made from. */
  lemma {:induction false} FromHexOfHex(bs: seq<byte>)
    ensures FromHex(Hex(bs)) == Some(bs)
  {
    if bs != [] {
      var s := Hex(bs);
      var hi, lo := bs[0] as nat / 16, bs[0] as nat % 16;
      assert s[0] == HexChar(hi) && s[1] == HexChar(lo);
      assert HexDigitValue(s[0]) == hi && HexDigitValue(s[1]) == lo;
      assert s[2..] == Hex(bs[1..]);
      FromHexOfHex(bs[1..]);
      assert bs == [bs[0]] + bs[1..];
    }
  }

  // ------------------------------------------------------------------
  // ASCII case

  predicate IsAscii(s: string)
  {
    forall i :: 0 <= i < |s| ==> s[i] as int < 128
  }

  predicate NoUpper(s: string)
  {
    forall i :: 0 <= i < |s| ==> !('A' <= s[i] <= 'Z')
  }

  function LowerChar(c: char): char
  {
    if 'A' <= c <= 'Z' then (c as int + 32) as char else c
  }

  /** `str.lower()` on the ASCII text it is applied to here (a scheme, a
      string accepted by `bytes.fromhex`); other characters are kept. */
  function Lower(s: string): string
  {
    seq(|s|, i requires 0 <= i < |s| => LowerChar(s[i]))
  }

  /** Lower-casing text does not change whether, or to what, `bytes.fromhex`
      decodes it; the result has no upper-case letter. */
  lemma {:induction false} FromHexOfLower(s: string)
    ensures FromHex(Lower(s)) == FromHex(s)
    ensures NoUpper(Lower(s))
    decreases |s|
  {
    var t := Lower(s);
    if s != [] {
      assert t[1..] == Lower(s[1..]);
      FromHexOfLower(s[1..]);
      if |s| >= 2 {
        assert t[2..] == Lower(s[2..]);
        FromHexOfLower(s[2..]);
      }
    }
  }

  // ------------------------------------------------------------------
  // Base 32

  function Base32DigitValue(c: char): Option<nat>
  {
    if 'A' <= c <= 'Z' then Some(c as nat - 'A' as nat)
    else if '2' <= c <= '7' then Some(c as nat - '2' as nat + 26)
    else None
  }

  function Base32Char(d: nat): char
    requires d < 32
  {
    if d < 26 then ('A' as int + d) as char else ('2' as int + d - 26) as char
  }

  /** The digit values of `s`, or None when a character is outside the
      upper-case alphabet (the "Non-base32 digit found" error). */
  function Base32Digits(s: string): (r: Option<seq<nat>>)
    ensures r.Some? <==> forall i :: 0 <= i < |s| ==> Base32DigitValue(s[i]).Some?
    ensures r.Some? ==> |r.value| == |s| && forall i :: 0 <= i < |s| ==> r.value[i] < 32
  {
    if forall i :: 0 <= i < |s| ==> Base32DigitValue(s[i]).Some? then
      Some(seq(|s|, i requires 0 <= i < |s| => Base32DigitValue(s[i]).value))
    else None
  }

  /** `s.rstrip('=')`. */
  function StripPadding(s: string): (r: string)
    ensures r <= s
    ensures r == [] || r[|r| - 1] != '='
    ensures forall i :: |r| <= i < |s| ==> s[i] == '='
  {
    if s != [] && s[|s| - 1] == '=' then StripPadding(s[..|s| - 1]) else s
  }

  function Zeros(n: nat): (r: seq<nat>)
    ensures |r| == n
  {
    seq(n, _ => 0)
  }

  function Bytes(ds: seq<nat>): seq<byte>
    requires forall i :: 0 <= i < |ds| ==> ds[i] < 256
  {
    seq(|ds|, i requires 0 <= i < |ds| => ds[i] as byte)
  }

  function Nats(bs: seq<byte>): seq<nat>
  {
    seq(|bs|, i requires 0 <= i < |bs| => bs[i] as nat)
  }

  /** Each group of eight base-32 digits becomes the five bytes of the
      40-bit number it denotes. */
  function Quanta(ds: seq<nat>): (r: seq<byte>)
    requires |ds| % 8 == 0
    ensures |r| == |ds| / 8 * 5
  {
    if ds == [] then []
    else Bytes(Digits(Value(ds[..8], 32), 256, 5)) + Quanta(ds[8..])
  }

  /** How many bytes of the last group `b32decode` discards for a given
      number of trailing `=`. */
  function DroppedBytes(padChars: nat): nat
  {
    if padChars == 0 then 0 else 5 - (43 - 5 * padChars) / 8
  }

  /** `base64.b32decode(s)` with its defaults, for ASCII text; None is the
      binascii.Error ("Incorrect padding" or "Non-base32 digit found"). The
      padding characters count as zero digits and the bytes they stand for
      are dropped from the end. */
  function Base32Decode(s: string): Option<seq<byte>>
  {
    if |s| % 8 != 0 then None
    else
      var body := StripPadding(s);
      var padChars := |s| - |body|;
      match Base32Digits(body)
      case None => None
      case Some(ds) =>
        if padChars !in {0, 1, 3, 4, 6} then None
        else
          var full := Quanta(ds + Zeros(padChars));
          assert padChars > 0 ==> |s| >= 8 && |full| >= 5;
          Some(full[..|full| - DroppedBytes(padChars)])
  }

  /** The base-32 digits of whole five-byte groups. */
  function GroupDigits(bs: seq<byte>): (ds: seq<nat>)
    requires |bs| % 5 == 0
    ensures |ds| == |bs| / 5 * 8
    ensures forall i :: 0 <= i < |ds| ==> ds[i] < 32
  {
    if bs == [] then []
    else Digits(Value(Nats(bs[..5]), 256), 32, 8) + GroupDigits(bs[5..])
  }

  /** RFC 4648 base-32 text of whole five-byte groups (which need no padding). */
  function Base32Encode(bs: seq<byte>): string
    requires |bs| % 5 == 0
  {
    Base32Chars(GroupDigits(bs))
  }

  function Base32Chars(ds: seq<nat>): string
    requires forall i :: 0 <= i < |ds| ==> ds[i] < 32
  {
    seq(|ds|, i requires 0 <= i < |ds| => Base32Char(ds[i]))
  }

  lemma DigitsOfChars(ds: seq<nat>)
    requires forall i :: 0 <= i < |ds| ==> ds[i] < 32
    ensures StripPadding(Base32Chars(ds)) == Base32Chars(ds)
    ensures Base32Digits(Base32Chars(ds)) == Some(ds)
  {
    var s := Base32Chars(ds);
    assert forall i :: 0 <= i < |s| ==> Base32DigitValue(s[i]) == Some(ds[i]);
    assert s == [] || s[|s| - 1] != '=';
    assert Base32Digits(s).Some?;
    assert Base32Digits(s).value == ds;
  }

  lemma {:induction false} QuantaOfGroupDigits(bs: seq<byte>)
    requires |bs| % 5 == 0
    ensures Quanta(GroupDigits(bs)) == bs
  {
    if bs != [] {
      var group := Nats(bs[..5]);
      var v := Value(group, 256);
      var ds := GroupDigits(bs);
      assert ds[..8] == Digits(v, 32, 8);
      assert ds[8..] == GroupDigits(bs[5..]);
      ValueBound(group, 256);
      assert Pow(256, 5) == Pow(32, 8);
      ValueOfDigits(v, 32, 8);
      DigitsOfValue(group, 256);
      assert Bytes(group) == bs[..5];
      QuantaOfGroupDigits(bs[5..]);
      assert bs == bs[..5] + bs[5..];
    }
  }

  /** Text of whole groups of base-32 digits, without padding, decodes to
      the five bytes of each group. */
  lemma Base32DecodeUnpadded(s: string)
    requires |s| % 8 == 0
    requires forall i :: 0 <= i < |s| ==> Base32DigitValue(s[i]).Some?
    ensures Base32Digits(s).Some?
    ensures Base32Decode(s) == Some(Quanta(Base32Digits(s).value))
  {
    assert Base32DigitValue('=') == None;
    assert StripPadding(s) == s;
    var ds := Base32Digits(s).value;
    assert ds + Zeros(0) == ds;
    var full := Quanta(ds);
    assert full[..|full| - DroppedBytes(0)] == full;
  }

  /** Decoding the base-32 text of whole groups gives the bytes back. */
  lemma Base32RoundTrip(bs: seq<byte>)
    requires |bs| % 5 == 0
    ensures Base32Decode(Base32Encode(bs)) == Some(bs)
  {
    var ds := GroupDigits(bs);
    var s := Base32Encode(bs);
    DigitsOfChars(ds);
    assert |s| == |ds| == |bs| / 5 * 8;
    assert forall i :: 0 <= i < |s| ==> Base32DigitValue(s[i]) == Some(ds[i]);
    Base32DecodeUnpadded(s);
    QuantaOfGroupDigits(bs);
  }

  /** A 32-character base-32 text without padding (the form of a BitTorrent
      info hash) decodes to 20 bytes, whose hexadecimal form has 40 digits. */
  lemma Base32InfoHash(s: string)
    requires |s| == 32
    requires forall i :: 0 <= i < |s| ==> Base32DigitValue(s[i]).Some?
    ensures Base32Decode(s).Some?
    ensures |Base32Decode(s).value| == 20 && |Hex(Base32Decode(s).value)| == 40
  {
    Base32DecodeUnpadded(s);
  }
}

=== FILE: layout.dfy ===
/** The files a torrent describes (`Torrent.init_files`): where each one goes
    on disk, relative to the working directory, and how long it is. */
module Layout {
  import opened Types
  import opened Text
  import opened Bencode

  /** One entry of `file_names`: `{"path": ..., "length": ...}`. */
  datatype FileEntry = FileEntry(path: string, length: int)

  /** The two layouts of the `info` dictionary: several files under the
      directory `name`, or the single file `name`. */
  datatype Shape =
    | MultiFile(entries: seq<FileEntry>)
    | SingleFile(entry: FileEntry)

  // ------------------------------------------------------------------
  // os.path.join on POSIX

  /** `os.path.join(a, b)`: an absolute `b` replaces `a`; otherwise a `/` is
      put between them unless `a` is empty or already ends with one. */
  function Join2(a: string, b: string): string
  {
    if StartsWith(b, "/") then b
    else if a == [] || a[|a| - 1] == '/' then a + b
    else a + "/" + b
  }

  /** `os.path.join(path, *segments)`. */
  function JoinPath(path: string, segments: seq<string>): string
    decreases |segments|
  {
    if segments == [] then path else JoinPath(Join2(path, segments[0]), segments[1..])
  }

  predicate Plain(segment: string)
  {
    segment != [] && forall i :: 0 <= i < |segment| ==> segment[i] != '/'
  }

  /** One plain segment joined to a directory that does not end with `/`
      adds one piece to its split. */
  lemma JoinPlain(root: string, s: string)
    requires root != [] && root[|root| - 1] != '/'
    requires Plain(s)
    ensures Join2(root, s) == root + "/" + s
    ensures Split(root + "/" + s, '/') == Split(root, '/') + [s]
  {
    assert !StartsWith(s, "/") by {
      assert s[0] != '/';
    }
    SplitJoin(root, s, '/');
    assert root + ['/'] + s == root + "/" + s;
    IndexOfIs(s, '/', |s|);
  }

  /** Joining plain segments to a directory that does not end with `/` and
      splitting the result at `/` gives back the directory's own pieces
      followed by the segments. */
  lemma {:induction false} JoinPathSplits(root: string, segments: seq<string>)
    requires root != [] && root[|root| - 1] != '/'
    requires forall i :: 0 <= i < |segments| ==> Plain(segments[i])
    ensures Split(JoinPath(root, segments), '/') == Split(root, '/') + segments
    decreases |segments|
  {
    if segments != [] {
      var s, rest := segments[0], segments[1..];
      var next := root + "/" + s;
      JoinPlain(root, s);
      assert next[|next| - 1] == s[|s| - 1];
      calc {
        Split(JoinPath(root, segments), '/');
        Split(JoinPath(next, rest), '/');
      == { JoinPathSplits(next, rest); }
        Split(next, '/') + rest;
        (Split(root, '/') + [s]) + rest;
      == { assert [s] + rest == segments; }
        Split(root, '/') + segments;
      }
    }
  }

  // ------------------------------------------------------------------
  // Entries

  /** The segments `os.path.join(root, *file["path"])` receives: the items of
      a list of text, or the characters of a text (unpacking a string yields
      its characters). Anything else makes the join raise. */
  function Segments(path: BValue): Result<seq<string>>
  {
    match path
    case BStr(s) => Ok(seq(|s|, i requires 0 <= i < |s| => [s[i]]))
    case BList(items) =>
      if forall i :: 0 <= i < |items| ==> items[i].BStr? then
        Ok(seq(|items|, i requires 0 <= i < |items| => items[i].s))
      else Err(Malformed)
    case BDict(m) => if m == map[] then Ok([]) else Err(Malformed)
    case BInt(_) => Err(Malformed)
  }

  /** The entry one element of `files` adds: its `path` joined to the
      directory `root`, and its `length`, which must be an integer for the
      running total. */
  function EntryOf(root: string, file: BValue): Result<FileEntry>
  {
    match Field(file, "path")
    case Err(e) => Err(e)
    case Ok(path) =>
      match Segments(path)
      case Err(e) => Err(e)
      case Ok(segments) =>
        match Field(file, "length")
        case Ok(BInt(n)) => Ok(FileEntry(JoinPath(root, segments), n))
        case _ => Err(Malformed)
  }

  /** The entries of a `files` list, in order; the first element that has no
      entry decides the error. */
  function EntriesOf(root: string, files: seq<BValue>): Result<seq<FileEntry>>
  {
    if files == [] then Ok([])
    else
      match EntriesOf(root, files[..|files| - 1])
      case Err(e) => Err(e)
      case Ok(entries) =>
        match EntryOf(root, files[|files| - 1])
        case Err(e) => Err(e)
        case Ok(entry) => Ok(entries + [entry])
  }

  /** The entries exist exactly when every element has one, and then they
      are the elements' entries, one each, in order. */
  lemma {:induction false} EntriesOfPointwise(root: string, files: seq<BValue>)
    ensures EntriesOf(root, files).Ok? <==> forall i :: 0 <= i < |files| ==> EntryOf(root, files[i]).Ok?
    ensures EntriesOf(root, files).Ok? ==>
      |EntriesOf(root, files).value| == |files| &&
      forall i :: 0 <= i < |files| ==> EntriesOf(root, files).value[i] == EntryOf(root, files[i]).value
  {
    if files != [] {
      var init := files[..|files| - 1];
      EntriesOfPointwise(root, init);
      assert forall i :: 0 <= i < |init| ==> init[i] == files[i];
    }
  }

  /** The entries of one more element of `files`. */
  lemma EntriesOfNext(root: string, files: seq<BValue>, i: nat)
    requires i < |files|
    ensures EntriesOf(root, files[..i + 1]) ==
      match EntriesOf(root, files[..i])
      case Err(e) => Err(e)
      case Ok(entries) =>
        match EntryOf(root, files[i])
        case Err(e) => Err(e)
        case Ok(entry) => Ok(entries + [entry])
  {
    assert files[..i + 1][..i] == files[..i];
  }

  /** An element without an entry ends the list's entries with its error,
      whatever follows it. */
  lemma {:induction false} EntriesOfErrorSticks(root: string, files: seq<BValue>, j: nat)
    requires j <= |files| && EntriesOf(root, files[..j]).Err?
    ensures EntriesOf(root, files) == EntriesOf(root, files[..j])
    decreases |files| - j
  {
    if j == |files| {
      assert files[..j] == files;
    } else {
      assert files[..j + 1][..j] == files[..j];
      EntriesOfErrorSticks(root, files, j + 1);
    }
  }

  /** The entries the loop of `init_files` has appended when it stops: all of
      them when every element has an entry, otherwise those of the elements
      before the first one without. */
  function Appended(root: string, files: seq<BValue>): seq<FileEntry>
    decreases |files|
  {
    if files == [] then []
    else
      match EntriesOf(root, files)
      case Ok(entries) => entries
      case Err(_) => Appended(root, files[..|files| - 1])
  }

  /** When element `i` is the first without an entry, the loop has appended
      the entries of the elements before it. */
  lemma {:induction false} AppendedAt(root: string, files: seq<BValue>, i: nat)
    requires i < |files| && EntriesOf(root, files[..i]).Ok? && EntryOf(root, files[i]).Err?
    ensures Appended(root, files) == EntriesOf(root, files[..i]).value
    decreases |files|
  {
    EntriesOfNext(root, files, i);
    EntriesOfErrorSticks(root, files, i + 1);
    var init := files[..|files| - 1];
    assert Appended(root, files) == Appended(root, init);
    if |files| == i + 1 {
      assert init == files[..i];
    } else {
      assert init[..i] == files[..i] && init[i] == files[i];
      AppendedAt(root, init, i);
    }
  }

  /** When element `i` is the first without an entry, the whole list has no
      table, its error is that element's, and the loop has appended the
      entries of the elements before `i`. */
  lemma StopsAt(root: string, files: seq<BValue>, i: nat)
    requires i < |files| && EntriesOf(root, files[..i]).Ok? && EntryOf(root, files[i]).Err?
    ensures EntriesOf(root, files) == Err(EntryOf(root, files[i]).error)
    ensures Appended(root, files) == EntriesOf(root, files[..i]).value
  {
    EntriesOfNext(root, files, i);
    EntriesOfErrorSticks(root, files, i + 1);
    AppendedAt(root, files, i);
  }

  /** Element `k` is the first without an entry, and the loop has appended
      the entries of the elements before it. */
  predicate FirstFailure(root: string, files: seq<BValue>, k: nat)
    requires k < |files|
  {
    EntriesOf(root, files[..k]).Ok? && EntryOf(root, files[k]).Err? &&
    Appended(root, files) == EntriesOf(root, files[..k]).value
  }

  /** What the loop has appended when `files` has no complete table: the
      entries of the elements before the first element without one. */
  lemma {:induction false} AppendedBeforeFailure(root: string, files: seq<BValue>)
    requires EntriesOf(root, files).Err?
    ensures exists k :: 0 <= k < |files| && FirstFailure(root, files, k)
    decreases |files|
  {
    var init := files[..|files| - 1];
    var k := |files| - 1;
    assert files[..k] == init;
    assert Appended(root, files) == Appended(root, init);
    if EntriesOf(root, init).Ok? {
      assert init != [] ==> Appended(root, init) == EntriesOf(root, init).value;
      assert FirstFailure(root, files, k);
    } else {
      AppendedBeforeFailure(root, init);
      var j :| 0 <= j < |init| && FirstFailure(root, init, j);
      assert init[..j] == files[..j] && init[j] == files[j];
      assert FirstFailure(root, files, j);
    }
  }

  /** The sum of the entries' lengths. */
  function SumLengths(entries: seq<FileEntry>): int
  {
    if entries == [] then 0 else SumLengths(entries[..|entries| - 1]) + entries[|entries| - 1].length
  }

  lemma SumLengthsNext(entries: seq<FileEntry>, entry: FileEntry)
    ensures SumLengths(entries + [entry]) == SumLengths(entries) + entry.length
  {
    assert (entries + [entry])[..|entries|] == entries;
  }

  /** The sum of the lengths of two lists is the sum of their sums. */
  lemma {:induction false} SumLengthsAppend(a: seq<FileEntry>, b: seq<FileEntry>)
    ensures SumLengths(a + b) == SumLengths(a) + SumLengths(b)
    decreases |b|
  {
    if b == [] {
      assert a + b == a;
    } else {
      assert (a + b)[..|a + b| - 1] == a + b[..|b| - 1];
      SumLengthsAppend(a, b[..|b| - 1]);
    }
  }

  /** `info["name"]`, which must be text to be joined to. */
  function RootOf(info: BValue): Result<string>
  {
    match Field(info, "name")
    case Ok(BStr(root)) => Ok(root)
    case _ => Err(Malformed)
  }

  /** The layout an `info` dictionary describes: with a `files` key, the
      entries of its elements under the directory `name`; without one, the
      single file `name` of the given `length`. */
  function LayoutOf(info: BValue): Result<Shape>
  {
    match RootOf(info)
    case Err(e) => Err(e)
    case Ok(root) =>
      if info.BDict? && "files" in info.entries then
        match Elements(info.entries["files"])
        case Err(e) => Err(e)
        case Ok(files) =>
          match EntriesOf(root, files)
          case Err(e) => Err(e)
          case Ok(entries) => Ok(MultiFile(entries))
      else
        match Field(info, "length")
        case Ok(BInt(n)) => Ok(SingleFile(FileEntry(root, n)))
        case _ => Err(Malformed)
  }

  /** The entries `init_files` has appended to `file_names` when the layout
      of `info` turns out malformed: those of the elements of `files` before
      the first one without an entry, and none when the failure comes before
      the loop or in the single-file branch. */
  function AddedUntilError(info: BValue): seq<FileEntry>
  {
    match RootOf(info)
    case Err(_) => []
    case Ok(root) =>
      if info.BDict? && "files" in info.entries then
        match Elements(info.entries["files"])
        case Err(_) => []
        case Ok(files) => Appended(root, files)
      else []
  }

  /** The entries a layout appends to `file_names`. */
  function Added(shape: Shape): seq<FileEntry>
  {
    match shape
    case MultiFile(entries) => entries
    case SingleFile(entry) => [entry]
  }

  /** `total_length` after the layout is read: the multi-file layout adds
      its lengths to the old total, the single-file layout replaces it. */
  function TotalAfter(oldTotal: int, shape: Shape): int
  {
    match shape
    case MultiFile(entries) => oldTotal + SumLengths(entries)
    case SingleFile(entry) => entry.length
  }

  /** A multi-file layout has one entry per element of `files`, each the
      element's path joined under `name` with the element's length. */
  lemma MultiFileEntries(info: BValue, files: seq<BValue>)
    requires info.BDict? && "files" in info.entries
    requires Elements(info.entries["files"]) == Ok(files)
    requires LayoutOf(info).Ok?
    ensures LayoutOf(info).value.MultiFile?
    ensures |Added(LayoutOf(info).value)| == |files|
    ensures forall i :: 0 <= i < |files| ==>
      EntryOf(RootOf(info).value, files[i]) == Ok(Added(LayoutOf(info).value)[i])
  {
    EntriesOfPointwise(RootOf(info).value, files);
  }
}

=== FILE: magnet.dfy ===
/** Reading the info hash out of a magnet link: the parts of `urlparse` and
    `parse_qs` the parser depends on, what one `xt` value yields, and the
    scan over the `xt` values (`Torrent._extract_info_hash`). `parse_qs`
    splits a query only at `&`, as it does from Python 3.9.2 on. */
module Magnet {
  import opened Types
  import opened Codec
  import opened Text

  const BTIH_PREFIX := "urn:btih:"

  // ------------------------------------------------------------------
  // urlparse and parse_qs

  predicate IsAsciiLetter(c: char)
  {
    'a' <= c <= 'z' || 'A' <= c <= 'Z'
  }

  predicate IsSchemeChar(c: char)
  {
    IsAsciiLetter(c) || '0' <= c <= '9' || c == '+' || c == '-' || c == '.'
  }

  /** Where `urlsplit` ends the scheme: at the first `:` when that is not the
      first character, the text before it starts with an ASCII letter and
      holds only scheme characters; |uri| when there is no scheme. */
  function SchemeEnd(uri: string): (k: nat)
    ensures k <= |uri|
    ensures k < |uri| ==> uri[k] == ':' && 0 < k
  {
    var i := IndexOf(uri, ':');
    if 0 < i < |uri| && IsAsciiLetter(uri[0]) && forall j :: 0 <= j < i ==> IsSchemeChar(uri[j]) then i
    else |uri|
  }

  /** `urlparse(uri).scheme`: lower-cased, empty when there is none. */
  function Scheme(uri: string): string
  {
    var k := SchemeEnd(uri);
    if k < |uri| then Lower(uri[..k]) else ""
  }

  /** What `urlsplit` goes on to split once the scheme and its `:` are gone. */
  function AfterScheme(uri: string): string
  {
    var k := SchemeEnd(uri);
    if k < |uri| then uri[k + 1..] else uri
  }

  /** `urlsplit(...).query`: the text after the first `?` and before the
      first `#`, or empty. */
  function QueryOf(rest: string): string
  {
    var beforeFragment := rest[..IndexOf(rest, '#')];
    var q := IndexOf(beforeFragment, '?');
    if q < |beforeFragment| then beforeFragment[q + 1..] else ""
  }

  function PlusToSpace(s: string): string
  {
    seq(|s|, i requires 0 <= i < |s| => if s[i] == '+' then ' ' else s[i])
  }

  /** The `xt` value one `name=value` field adds: nothing without `=`, with
      an empty value, or under another name (a name reads `xt` after `+` is
      turned into a space exactly when it was `xt`). */
  function FieldXt(field: string): seq<string>
  {
    var e := IndexOf(field, '=');
    if e + 1 >= |field| || e != 2 || field[0] != 'x' || field[1] != 't' then []
    else [PlusToSpace(field[3..])]
  }

  /** The `xt` values of a list of fields, in order, never empty. */
  function XtsOf(fields: seq<string>): (xts: seq<string>)
    ensures forall i :: 0 <= i < |xts| ==> xts[i] != []
  {
    if fields == [] then [] else FieldXt(fields[0]) + XtsOf(fields[1..])
  }

  /** `parse_qs(query).get("xt", [])`. */
  function QueryXts(query: string): seq<string>
  {
    XtsOf(Split(query, '&'))
  }

  /** The `xt` values of a magnet link, in order. */
  function XtValues(uri: string): seq<string>
  {
    QueryXts(QueryOf(AfterScheme(uri)))
  }

  /** The fields of two lists contribute their `xt` values in order. */
  lemma {:induction false} XtsOfAppend(f: seq<string>, g: seq<string>)
    ensures XtsOf(f + g) == XtsOf(f) + XtsOf(g)
  {
    if f == [] {
      assert f + g == g;
    } else {
      assert (f + g)[1..] == f[1..] + g;
      XtsOfAppend(f[1..], g);
    }
  }

  /** The fields on either side of an `&` contribute their `xt` values in
      order, the left side's first. */
  lemma QueryXtsJoin(a: string, b: string)
    ensures QueryXts(a + "&" + b) == QueryXts(a) + QueryXts(b)
  {
    SplitJoin(a, b, '&');
    XtsOfAppend(Split(a, '&'), Split(b, '&'));
  }

  /** A value without `+` is left as it is by unescaping. */
  lemma PlusToSpaceKeeps(v: string)
    requires forall i :: 0 <= i < |v| ==> v[i] != '+'
    ensures PlusToSpace(v) == v
  {
  }

  /** A field `xt=v` with a non-empty value yields `v` with each `+` read as
      a space. */
  lemma XtField(v: string)
    requires v != []
    ensures FieldXt("xt=" + v) == [PlusToSpace(v)]
  {
    var f := "xt=" + v;
    IndexOfIs(f, '=', 2);
    assert f[3..] == v;
  }

  /** A single field `xt=v` yields `v` with each `+` read as a space. */
  lemma SingleXt(v: string)
    requires v != [] && forall i :: 0 <= i < |v| ==> v[i] != '&'
    ensures QueryXts("xt=" + v) == [PlusToSpace(v)]
  {
    var q := "xt=" + v;
    assert forall i :: 0 <= i < |q| ==> q[i] != '&';
    IndexOfIs(q, '&', |q|);
    assert Split(q, '&') == [q];
    XtField(v);
    assert XtsOf([q]) == FieldXt(q) + XtsOf([]);
  }

  /** A link `magnet:?xt=A&xt=B` is a magnet link whose `xt` values are A
      then B, as long as neither holds a character with a meaning in a URI
      query (`&`, `+`, `#`). */
  lemma TwoXtLink(a: string, b: string)
    requires a != [] && forall i :: 0 <= i < |a| ==> a[i] != '&' && a[i] != '+' && a[i] != '#'
    requires b != [] && forall i :: 0 <= i < |b| ==> b[i] != '&' && b[i] != '+' && b[i] != '#'
    ensures Scheme("magnet:?xt=" + a + "&xt=" + b) == "magnet"
    ensures XtValues("magnet:?xt=" + a + "&xt=" + b) == [a, b]
  {
    var uri := "magnet:?xt=" + a + "&xt=" + b;
    MagnetPrefixScheme(uri);
    var rest := AfterScheme(uri);
    assert rest == "?xt=" + a + "&xt=" + b;
    assert forall i :: 0 <= i < |rest| ==> rest[i] != '#';
    IndexOfIs(rest, '#', |rest|);
    assert rest[..|rest|] == rest;
    IndexOfIs(rest, '?', 0);
    assert QueryOf(rest) == "xt=" + a + "&xt=" + b;
    assert "xt=" + a + "&xt=" + b == ("xt=" + a) + "&" + ("xt=" + b);
    QueryXtsJoin("xt=" + a, "xt=" + b);
    SingleXt(a);
    SingleXt(b);
    PlusToSpaceKeeps(a);
    PlusToSpaceKeeps(b);
  }

  /** Every text that starts with `magnet:?` has the scheme `magnet`. */
  lemma MagnetPrefixScheme(uri: string)
    requires StartsWith(uri, "magnet:?")
    ensures Scheme(uri) == "magnet"
    ensures AfterScheme(uri) == uri[7..]
  {
    assert uri[..8] == "magnet:?";
    assert forall i :: 0 <= i < 6 ==> uri[i] != ':';
    IndexOfIs(uri, ':', 6);
    assert uri[..6] == "magnet";
    assert Lower("magnet") == "magnet";
  }

  // ------------------------------------------------------------------
  // One xt value

  /** The corrected per-value result of the loop body of
      `_extract_info_hash`: the hash one `xt` value yields, None when the
      corrected loop moves on to the next value (on the values
      AbortsAsWritten names, the code as written raises instead):
      only `urn:btih:` values count; the text after their last `:` is
      returned lower-cased when `bytes.fromhex` accepts it, otherwise as the
      hexadecimal form of its base-32 decoding. Either way the hash is text
      `bytes.fromhex` accepts (pairs of hexadecimal digits, possibly
      separated by ASCII whitespace) without upper-case letters. */
  function Decoded(xt: string): (r: Option<string>)
    ensures r.Some? ==> StartsWith(xt, BTIH_PREFIX)
    ensures r.Some? ==> FromHex(r.value).Some? && NoUpper(r.value)
  {
    if !StartsWith(xt, BTIH_PREFIX) then None
    else
      var segment := AfterLast(xt, ':');
      if FromHex(segment).Some? then
        FromHexOfLower(segment);
        Some(Lower(segment))
      else
        match Base32Decode(segment)
        case Some(bs) =>
          FromHexOfHex(bs);
          Some(Hex(bs))
        case None => None
  }

  /** The values on which the code as written raises instead of moving on:
      a `urn:btih:` segment that is not hexadecimal and not ASCII makes
      `b32decode` raise a plain ValueError, which the `except binascii.Error`
      clause does not catch. */
  predicate AbortsAsWritten(xt: string)
  {
    StartsWith(xt, BTIH_PREFIX) && FromHex(AfterLast(xt, ':')).None? && !IsAscii(AfterLast(xt, ':'))
  }

  function HashOrError(h: Option<string>): Result<string>
  {
    match h
    case Some(v) => Ok(v)
    case None => Err(InvalidMagnet)
  }

  /** The first result `f` gives for an element of `xs`, every element for
      which it gives none skipped. */
  function FirstSome<T>(f: string -> Option<T>, xs: seq<string>): Option<T>
  {
    if xs == [] then None
    else if f(xs[0]).Some? then f(xs[0])
    else FirstSome(f, xs[1..])
  }

  /** FirstSome finds the first element with a result, and finds none exactly
      when no element has one. */
  lemma {:induction false} FirstSomeIsFirst<T>(f: string -> Option<T>, xs: seq<string>)
    ensures FirstSome(f, xs).None? <==> forall i :: 0 <= i < |xs| ==> f(xs[i]).None?
    ensures FirstSome(f, xs).Some? ==>
      exists i :: 0 <= i < |xs| && f(xs[i]) == FirstSome(f, xs) &&
        forall j :: 0 <= j < i ==> f(xs[j]).None?
  {
    if xs != [] {
      FirstSomeIsFirst(f, xs[1..]);
      if f(xs[0]).None? {
        assert forall i :: 1 <= i < |xs| ==> xs[i] == xs[1..][i - 1];
        if FirstSome(f, xs).Some? {
          var k :| 0 <= k < |xs[1..]| && f(xs[1..][k]) == FirstSome(f, xs[1..]) &&
            forall j :: 0 <= j < k ==> f(xs[1..][j]).None?;
          assert f(xs[k + 1]) == FirstSome(f, xs);
        }
      }
    }
  }

  /** The first hash an `xt` value yields, every value that yields none
      skipped. */
  function FirstDecoded(xts: seq<string>): Option<string>
  {
    FirstSome(Decoded, xts)
  }

  /** The search from position `i` on: the hash the value at `i` yields, or
      else the search from `i + 1` on. */
  lemma FirstDecodedNext(xts: seq<string>, i: nat)
    requires i < |xts|
    ensures FirstDecoded(xts[i..]) == if Decoded(xts[i]).Some? then Decoded(xts[i]) else FirstDecoded(xts[i + 1..])
  {
    assert xts[i..][0] == xts[i] && xts[i..][1..] == xts[i + 1..];
  }

  /** The scan over the `xt` values as the source writes it: it stops with an
      error at the first value that aborts. */
  function ScanAsWritten(xts: seq<string>): Result<string>
  {
    if xts == [] then Err(InvalidMagnet)
    else if AbortsAsWritten(xts[0]) then Err(InvalidMagnet)
    else match Decoded(xts[0])
      case Some(h) => Ok(h)
      case None => ScanAsWritten(xts[1..])
  }

  /** `_extract_info_hash` as written. */
  function ExtractAsWritten(uri: string): Result<string>
  {
    if Scheme(uri) != "magnet" then Err(InvalidMagnet) else ScanAsWritten(XtValues(uri))
  }

  /** `_extract_info_hash` with undecodable values always skipped: the
      scheme must be `magnet`, and the hash is the first one an `xt` value
      yields. */
  function MagnetInfoHash(uri: string): Result<string>
  {
    if Scheme(uri) != "magnet" then Err(InvalidMagnet) else HashOrError(FirstDecoded(XtValues(uri)))
  }

  /** FirstDecoded finds the first value that yields a hash, and finds none
      exactly when no value yields one. */
  lemma FirstDecodedIsFirst(xts: seq<string>)
    ensures FirstDecoded(xts).None? <==> forall i :: 0 <= i < |xts| ==> Decoded(xts[i]).None?
    ensures FirstDecoded(xts).Some? ==>
      exists i :: 0 <= i < |xts| && Decoded(xts[i]) == FirstDecoded(xts) &&
        forall j :: 0 <= j < i ==> Decoded(xts[j]).None?
  {
    FirstSomeIsFirst(Decoded, xts);
  }

  /** Where no value aborts, the code as written and the corrected scan agree. */
  lemma {:induction false} AsWrittenAgrees(xts: seq<string>)
    requires forall i :: 0 <= i < |xts| ==> !AbortsAsWritten(xts[i])
    ensures ScanAsWritten(xts) == HashOrError(FirstDecoded(xts))
  {
    if xts != [] {
      assert forall i :: 0 <= i < |xts[1..]| ==> xts[1..][i] == xts[i + 1];
      AsWrittenAgrees(xts[1..]);
    }
  }

  /** `urn:btih:` followed by a segment without `:` has that segment as the
      text after its last `:`. */
  lemma BtihSegment(segment: string)
    requires forall i :: 0 <= i < |segment| ==> segment[i] != ':'
    ensures StartsWith(BTIH_PREFIX + segment, BTIH_PREFIX)
    ensures AfterLast(BTIH_PREFIX + segment, ':') == segment
  {
    var xt := BTIH_PREFIX + segment;
    assert xt[..|BTIH_PREFIX|] == BTIH_PREFIX;
    var r := AfterLast(xt, ':');
    assert xt[|xt| - |segment| - 1] == ':';
    assert forall i :: |xt| - |segment| <= i < |xt| ==> xt[i] != ':';
    assert r == xt[|xt| - |segment|..] == segment;
  }

  /** The value `urn:btih:é` is one the code as written aborts on. */
  lemma NonAsciiValue()
    ensures AbortsAsWritten("urn:btih:é") && Decoded("urn:btih:é") == None
  {
    BtihSegment("é");
    assert "urn:btih:é" == BTIH_PREFIX + "é";
    assert FromHex("é") == None;
    assert !IsAscii("é");
    assert Base32Decode("é") == None;
  }

  /** The value `urn:btih:ab` yields the hash `ab`. */
  lemma HexValue()
    ensures !AbortsAsWritten("urn:btih:ab") && Decoded("urn:btih:ab") == Some("ab")
  {
    BtihSegment("ab");
    assert "urn:btih:ab" == BTIH_PREFIX + "ab";
    assert FromHex("ab").Some?;
    assert Lower("ab") == "ab";
  }

  /** A link whose first `urn:btih:` value is not ASCII and whose second is
      the hexadecimal `ab`: the code as written raises, although the second
      value is usable; the corrected scan returns `ab`. */
  lemma NonAsciiValueAborts()
    ensures ExtractAsWritten("magnet:?xt=urn:btih:é&xt=urn:btih:ab") == Err(InvalidMagnet)
    ensures MagnetInfoHash("magnet:?xt=urn:btih:é&xt=urn:btih:ab") == Ok("ab")
  {
    var a, b := "urn:btih:é", "urn:btih:ab";
    assert "magnet:?xt=urn:btih:é&xt=urn:btih:ab" == "magnet:?xt=" + a + "&xt=" + b;
    TwoXtLink(a, b);
    NonAsciiValue();
    HexValue();
    var xts := [a, b];
    assert xts[1..] == [b];
    assert ScanAsWritten(xts) == Err(InvalidMagnet);
    assert FirstDecoded(xts) == FirstDecoded([b]) == Some("ab");
  }

  /** A 32-character base-32 hash written only with the letters A to F is
      also hexadecimal text, so it is returned as 32 hexadecimal digits (16
      bytes) instead of the 40 its base-32 reading (20 bytes) would give. */
  lemma HexShadowsBase32(s: string)
    requires |s| == 32 && forall i :: 0 <= i < |s| ==> 'A' <= s[i] <= 'F'
    ensures Decoded(BTIH_PREFIX + s) == Some(Lower(s)) && |Lower(s)| == 32
    ensures Base32Decode(s).Some? && |Hex(Base32Decode(s).value)| == 40
  {
    BtihSegment(s);
    FromHexOfDigits(s);
    Base32InfoHash(s);
  }

  /** A link `magnet:?xt=V` has the one `xt` value V with each `+` read as a
      space, as long as V holds no `&` or `#`. */
  lemma OneXtLink(v: string)
    requires v != [] && forall i :: 0 <= i < |v| ==> v[i] != '&' && v[i] != '#'
    ensures Scheme("magnet:?xt=" + v) == "magnet"
    ensures XtValues("magnet:?xt=" + v) == [PlusToSpace(v)]
  {
    var uri := "magnet:?xt=" + v;
    MagnetPrefixScheme(uri);
    var rest := AfterScheme(uri);
    assert rest == "?xt=" + v;
    assert forall i :: 0 <= i < |rest| ==> rest[i] != '#';
    IndexOfIs(rest, '#', |rest|);
    assert rest[..|rest|] == rest;
    IndexOfIs(rest, '?', 0);
    assert QueryOf(rest) == "xt=" + v;
    SingleXt(v);
  }

  /** The first result over a single element is that element's result. */
  lemma FirstSomeSingle<T>(f: string -> Option<T>, x: string)
    ensures FirstSome(f, [x]) == f(x)
  {
    assert [x][1..] == [];
  }

  /** A link `magnet:?xt=V` yields what its one `xt` value yields, as long
      as V holds no `&` or `#`. */
  lemma OneXtHash(v: string)
    requires v != [] && forall i :: 0 <= i < |v| ==> v[i] != '&' && v[i] != '#'
    ensures MagnetInfoHash("magnet:?xt=" + v) == HashOrError(Decoded(PlusToSpace(v)))
  {
    OneXtLink(v);
    FirstSomeSingle(Decoded, PlusToSpace(v));
  }

  /** A `urn:btih:` value with nothing after the prefix yields the empty
      hash, since `bytes.fromhex` accepts the empty text. */
  lemma EmptyHashAccepted()
    ensures MagnetInfoHash("magnet:?xt=urn:btih:") == Ok("")
  {
    assert "magnet:?xt=urn:btih:" == "magnet:?xt=" + BTIH_PREFIX;
    assert forall i :: 0 <= i < |BTIH_PREFIX| ==> BTIH_PREFIX[i] != '&' && BTIH_PREFIX[i] != '#' && BTIH_PREFIX[i] != '+';
    calc {
      MagnetInfoHash("magnet:?xt=" + BTIH_PREFIX);
    == { OneXtHash(BTIH_PREFIX); }
      HashOrError(Decoded(PlusToSpace(BTIH_PREFIX)));
    == { PlusToSpaceKeeps(BTIH_PREFIX); }
      HashOrError(Decoded(BTIH_PREFIX));
    == { EmptyValue(); }
      Ok("");
    }
  }

  /** The value `urn:btih:` yields the empty hash. */
  lemma EmptyValue()
    ensures Decoded(BTIH_PREFIX) == Some("")
  {
    BtihSegment("");
    assert BTIH_PREFIX + "" == BTIH_PREFIX;
    assert Lower("") == "";
  }

  /** `AB CD` is accepted by `bytes.fromhex`: the space between the pairs is
      skipped. */
  lemma SpacedPairs()
    ensures FromHex("AB CD").Some? && Lower("AB CD") == "ab cd"
  {
    assert "AB CD"[2..] == " CD" && " CD"[1..] == "CD" && "CD"[2..] == [];
  }

  /** A hash written as hexadecimal pairs separated by an escaped space is
      accepted with the space kept: parse_qs turns `+` into a space,
      `bytes.fromhex` skips it, and the lower-cased segment, space included,
      is the hash the mirror URLs are built from. */
  lemma SpacedHashAccepted()
    ensures MagnetInfoHash("magnet:?xt=urn:btih:AB+CD") == Ok("ab cd")
  {
    var v := "urn:btih:AB+CD";
    var w := BTIH_PREFIX + "AB CD";
    assert "magnet:?xt=urn:btih:AB+CD" == "magnet:?xt=" + v;
    assert v != [] && forall i :: 0 <= i < |v| ==> v[i] != '&' && v[i] != '#';
    assert PlusToSpace(v) == w by {
      assert forall i :: 0 <= i < |v| ==> PlusToSpace(v)[i] == w[i];
    }
    calc {
      MagnetInfoHash("magnet:?xt=" + v);
    == { OneXtHash(v); }
      HashOrError(Decoded(w));
    == { SpacedValue(); }
      Ok("ab cd");
    }
  }

  /** The value `urn:btih:AB CD` yields the hash `ab cd`. */
  lemma SpacedValue()
    ensures Decoded(BTIH_PREFIX + "AB CD") == Some("ab cd")
  {
    BtihSegment("AB CD");
    SpacedPairs();
  }

  /** Any hash the parser returns is text `bytes.fromhex` accepts (pairs of
      hexadecimal digits, possibly separated by ASCII whitespace) without
      upper-case letters. */
  lemma MagnetInfoHashIsHex(uri: string)
    ensures MagnetInfoHash(uri).Ok? ==>
      FromHex(MagnetInfoHash(uri).value).Some? && NoUpper(MagnetInfoHash(uri).value)
  {
    if MagnetInfoHash(uri).Ok? {
      FirstDecodedIsFirst(XtValues(uri));
    }
  }

  /** `_extract_info_hash`, with the correction described at ScanAsWritten: a
      link whose scheme is not `magnet` is refused before any `xt` value is
      read; otherwise the `xt` values are tried in order. */
  method ExtractInfoHash(uri: string) returns (r: Result<string>)
    ensures r == MagnetInfoHash(uri)
  {
    if Scheme(uri) != "magnet" {
      return Err(InvalidMagnet);
    }
    var h := ScanXts(XtValues(uri));
    r := HashOrError(h);
  }

  /** The loop of `_extract_info_hash`: the `xt` values are tried in order
      and the first hash one of them yields is returned. */
  method ScanXts(xts: seq<string>) returns (h: Option<string>)
    ensures h == FirstDecoded(xts)
  {
    var i := 0;
    assert xts[i..] == xts;
    while i < |xts|
      invariant 0 <= i <= |xts|
      invariant FirstDecoded(xts) == FirstDecoded(xts[i..])
    {
      var xt := xts[i];
      FirstDecodedNext(xts, i);
      if StartsWith(xt, BTIH_PREFIX) {
        var segment := AfterLast(xt, ':');
        if FromHex(segment).Some? {
          assert Decoded(xt) == Some(Lower(segment));
          return Some(Lower(segment));
        }
        // The source lets a non-ASCII segment raise here; it is skipped instead.
        var decoded := Base32Decode(segment);
        if decoded.Some? {
          assert Decoded(xt) == Some(Hex(decoded.value));
          return Some(Hex(decoded.value));
        }
      }
      i := i + 1;
    }
    assert xts[i..] == [];
    return None;
  }
}

=== FILE: mirrors.dfy ===
/** Fetching torrent metadata for an info hash from public caches
    (`Torrent._download_torrent_from_info_hash`). The network is a parameter:
    `get` gives the outcome of a GET request for each URL. */
module Mirrors {
  import opened Types

  /** What a GET request can end with: an exception raised by the HTTP
      library (connection error, timeout, ...), or a response. */
  datatype HttpOutcome =
    | TransportError
    | Response(status: int, body: seq<byte>)

  /** A response the loader takes as the metadata: status 200 with a
      non-empty body. */
  predicate Accepted(o: HttpOutcome)
  {
    o.Response? && o.status == 200 && o.body != []
  }

  /** The mirrors, in the order they are tried. */
  function MirrorUrls(infoHash: string): seq<string>
  {
    ["https://itorrents.org/torrent/" + infoHash + ".torrent",
     "https://btcache.me/torrent/" + infoHash]
  }

  /** The position of the first URL whose outcome is accepted, or |urls|
      when none is. */
  function FirstAccepted(urls: seq<string>, get: string -> HttpOutcome): (k: nat)
    ensures k <= |urls|
    ensures k < |urls| ==> Accepted(get(urls[k]))
    ensures forall j :: 0 <= j < k ==> !Accepted(get(urls[j]))
  {
    if urls == [] then 0
    else if Accepted(get(urls[0])) then 0
    else 1 + FirstAccepted(urls[1..], get)
  }

  /** The body of the first accepted response; MetadataUnavailable when every
      URL failed. */
  function Fetched(urls: seq<string>, get: string -> HttpOutcome): Result<seq<byte>>
  {
    var k := FirstAccepted(urls, get);
    if k < |urls| then Ok(get(urls[k]).body) else Err(MetadataUnavailable)
  }

  /** The mirrors are tried in order; the first accepted response is the
      result and no later mirror is asked; when none is accepted every mirror
      has been asked and the load fails. `requested` lists the URLs asked,
      in order. */
  method DownloadTorrent(infoHash: string, get: string -> HttpOutcome)
    returns (r: Result<seq<byte>>, requested: seq<string>)
    ensures r == Fetched(MirrorUrls(infoHash), get)
    ensures |requested| <= 2 && requested == MirrorUrls(infoHash)[..|requested|]
    ensures forall j :: 0 <= j < |requested| - 1 ==> !Accepted(get(requested[j]))
    ensures r.Ok? ==>
      requested != [] && Accepted(get(requested[|requested| - 1])) &&
      r.value == get(requested[|requested| - 1]).body
    ensures r.Err? ==>
      r.error == MetadataUnavailable && requested == MirrorUrls(infoHash) &&
      !Accepted(get(requested[|requested| - 1]))
  {
    var urls := MirrorUrls(infoHash);
    requested := [];
    var i := 0;
    while i < |urls|
      invariant 0 <= i <= |urls|
      invariant requested == urls[..i]
      invariant forall j :: 0 <= j < i ==> !Accepted(get(urls[j]))
    {
      var url := urls[i];
      requested := requested + [url];
      var response := get(url);
      if response.TransportError? {
        i := i + 1;
        continue;
      }
      if response.status == 200 && response.body != [] {
        assert FirstAccepted(urls, get) == i;
        return Ok(response.body), requested;
      }
      i := i + 1;
    }
    assert FirstAccepted(urls, get) == |urls|;
    return Err(MetadataUnavailable), requested;
  }
}

=== FILE: text.dfy ===
/** The few operations on text that the parser and the path joiner rely on,
    with Python's meaning. */
module Text {

  predicate StartsWith(s: string, prefix: string)
  {
    |prefix| <= |s| && s[..|prefix|] == prefix
  }

  /** The position of the first `c` in `s`, or |s| when there is none. */
  function IndexOf(s: string, c: char): (k: nat)
    ensures k <= |s|
    ensures k < |s| ==> s[k] == c
  {
    if s == [] || s[0] == c then 0 else 1 + IndexOf(s[1..], c)
  }

  /** No `c` comes before the position IndexOf finds. */
  lemma {:induction false} IndexOfFirst(s: string, c: char)
    ensures forall i :: 0 <= i < IndexOf(s, c) ==> s[i] != c
  {
    if s != [] && s[0] != c {
      IndexOfFirst(s[1..], c);
      assert forall i :: 1 <= i < IndexOf(s, c) ==> s[i] == s[1..][i - 1];
    }
  }

  /** The first `c` is at `k` when `k` holds a `c` (or is the end) and no
      earlier position does. */
  lemma {:induction false} IndexOfIs(s: string, c: char, k: nat)
    requires k <= |s| && (k < |s| ==> s[k] == c)
    requires forall i :: 0 <= i < k ==> s[i] != c
    ensures IndexOf(s, c) == k
  {
    if k > 0 {
      IndexOfIs(s[1..], c, k - 1);
    }
  }

  /** `s.split(c)[-1]`: the text after the last `c`, or all of `s`. */
  function AfterLast(s: string, c: char): (r: string)
    ensures |r| <= |s| && r == s[|s| - |r|..]
    ensures forall i :: 0 <= i < |r| ==> r[i] != c
    ensures |r| < |s| ==> s[|s| - |r| - 1] == c
  {
    if s == [] || s[|s| - 1] == c then [] else AfterLast(s[..|s| - 1], c) + [s[|s| - 1]]
  }

  /** `s.split(c)`: the pieces between the occurrences of `c`, in order;
      never empty, since a text without `c` is one piece. */
  function Split(s: string, c: char): (r: seq<string>)
    ensures |r| > 0
    decreases |s|
  {
    var k := IndexOf(s, c);
    if k == |s| then [s] else [s[..k]] + Split(s[k + 1..], c)
  }

  lemma {:induction false} IndexOfAppend(a: string, rest: string, c: char)
    ensures IndexOf(a + rest, c) == if IndexOf(a, c) < |a| then IndexOf(a, c) else |a| + IndexOf(rest, c)
  {
    if a != [] {
      assert (a + rest)[1..] == a[1..] + rest;
      IndexOfAppend(a[1..], rest, c);
    } else {
      assert a + rest == rest;
    }
  }

  /** Splitting at a separator placed between two texts splits each text on
      its own. */
  lemma {:induction false} SplitJoin(a: string, b: string, c: char)
    ensures Split(a + [c] + b, c) == Split(a, c) + Split(b, c)
    decreases |a|
  {
    var q := a + [c] + b;
    var k := IndexOf(a, c);
    assert q == a + ([c] + b);
    IndexOfAppend(a, [c] + b, c);
    if k == |a| {
      assert q[..k] == a && q[k + 1..] == b;
      assert Split(q, c) == [a] + Split(b, c);
    } else {
      var head, tail := a[..k], a[k + 1..];
      assert q[..k] == head;
      assert q[k + 1..] == tail + [c] + b;
      calc {
        Split(q, c);
        [head] + Split(tail + [c] + b, c);
      == { SplitJoin(tail, b, c); }
        [head] + (Split(tail, c) + Split(b, c));
      == { ConcatAssociates([head], Split(tail, c), Split(b, c)); }
        ([head] + Split(tail, c)) + Split(b, c);
        Split(a, c) + Split(b, c);
      }
    }
  }

  lemma ConcatAssociates<T>(f: seq<T>, x: seq<T>, y: seq<T>)
    ensures f + (x + y) == (f + x) + y
  {
  }
}

=== FILE: torrent.dfy ===
/** The `Torrent` object: it is filled in from decoded `.torrent` metadata
    that comes from a local file or, for a magnet link, from a public cache.
    Everything outside the process is a parameter, held in an `Env`. */
module Torrents {
  import opened Types
  import opened Text
  import opened Bencode
  import opened Magnet
  import opened Mirrors
  import opened Layout

  /** The world the loader talks to. `files` holds the regular files by path
      and their bytes; `decode` and `encode` are the bencode library, `None`
      standing for a decoding error; `sha1` is the SHA-1 digest; `get` is
      the HTTP client; `clock` is the text of the time the peer id is made
      from, already encoded. */
  datatype Env = Env(
    files: map<string, seq<byte>>,
    decode: seq<byte> -> Option<BValue>,
    encode: BValue -> seq<byte>,
    sha1: seq<byte> -> seq<byte>,
    get: string -> HttpOutcome,
    clock: seq<byte>)

  /** The fields of a `Torrent`, as a value. */
  datatype Fields = Fields(
    torrentFile: BValue,
    totalLength: int,
    pieceLength: int,
    pieces: BValue,
    infoHash: seq<byte>,
    peerId: seq<byte>,
    announceList: BValue,
    fileNames: seq<FileEntry>,
    numberOfPieces: int)

  /** The fields of a new `Torrent`. */
  const Initial := Fields(BDict(map[]), 0, 0, BInt(0), [], [], BStr(""), [], 0)

  /** `generate_peer_id`: the SHA-1 digest of the clock's text. */
  function PeerIdOf(env: Env): seq<byte>
  {
    env.sha1(env.clock)
  }

  /** `get_trakers`: the tracker tiers of a metadata dictionary. */
  function Trackers(meta: BValue): Result<BValue>
    requires meta.BDict?
  {
    if "announce-list" in meta.entries then Ok(meta.entries["announce-list"])
    else if "announce" in meta.entries then Ok(BList([BList([meta.entries["announce"]])]))
    else Err(Malformed)
  }

  /** The tiers are `announce-list` whenever it is present; otherwise a single
      tier holding the single tracker `announce`; there are none, and the
      lookup raises, when both keys are missing. */
  lemma TrackerTiers(meta: BValue)
    requires meta.BDict?
    ensures "announce-list" in meta.entries ==>
      Trackers(meta).Ok? && Trackers(meta).value == meta.entries["announce-list"]
    ensures "announce-list" !in meta.entries && Trackers(meta).Ok? ==>
      Trackers(meta).value.BList? && |Trackers(meta).value.items| == 1 &&
      Trackers(meta).value.items[0] == BList([meta.entries["announce"]])
    ensures Trackers(meta).Err? <==> "announce-list" !in meta.entries && "announce" !in meta.entries
  {
  }

  /** `math.ceil(total / d)` over the rationals: the least `n` with
      `n * d >= total` when `d` is positive, the least `n` with
      `n * d <= total` when it is negative. */
  function CeilDiv(total: int, d: int): (n: int)
    requires d != 0
    ensures d > 0 ==> (n - 1) * d < total <= n * d
    ensures d < 0 ==> n * d <= total < (n - 1) * d
  {
    if d > 0 then -((-total) / d) else -(total / -d)
  }

  /** A whole number of pieces gives exactly that count; one byte more needs
      one piece more. */
  lemma PieceCountExamples()
    ensures CeilDiv(1048576, 262144) == 4
    ensures CeilDiv(1048577, 262144) == 5
  {
    assert -1048576 == -4 * 262144;
    assert -1048577 == -5 * 262144 + 262143;
  }

  /** `info` of a metadata dictionary and the layout it describes. */
  function InfoLayout(torrentFile: BValue): Result<Shape>
  {
    match Field(torrentFile, "info")
    case Err(e) => Err(e)
    case Ok(info) => LayoutOf(info)
  }

  /** The entries `init_files` has appended when the layout of `info` turns
      out malformed; none when there is no `info`. */
  function InfoAddedUntilError(torrentFile: BValue): seq<FileEntry>
  {
    match Field(torrentFile, "info")
    case Err(_) => []
    case Ok(info) => AddedUntilError(info)
  }

  /** `_load_from_torrent_file`: the fields after `contents` is loaded into
      an object whose fields are `s`, or the error the load raises. The
      checks come in the order the source meets them; a `piece length` that
      is not an integer makes the division raise TypeError, reported here as
      soon as the field is read. */
  function Load(s: Fields, contents: BValue, env: Env): Result<Fields>
  {
    match Field(contents, "info")
    case Err(e) => Err(e)
    case Ok(info) =>
      match Field(info, "piece length")
      case Err(e) => Err(e)
      case Ok(pl) =>
        if !pl.BInt? then Err(Malformed)
        else
          match Field(info, "pieces")
          case Err(e) => Err(e)
          case Ok(pieces) =>
            match Trackers(contents)
            case Err(e) => Err(e)
            case Ok(trackers) =>
              match LayoutOf(info)
              case Err(e) => Err(e)
              case Ok(shape) =>
                var total := TotalAfter(s.totalLength, shape);
                var names := s.fileNames + Added(shape);
                if pl.n == 0 then Err(ZeroPieceLength)
                else if total <= 0 || names == [] then Err(InvalidLayout)
                else Ok(Fields(contents, total, pl.n, pieces, env.sha1(env.encode(info)), PeerIdOf(env),
                               trackers, names, CeilDiv(total, pl.n)))
  }

  /** `load_from_path`: the decoded contents of a file. */
  function PathContents(path: string, env: Env): Result<BValue>
  {
    if path !in env.files then Err(NotFound)
    else match env.decode(env.files[path])
      case Some(contents) => Ok(contents)
      case None => Err(Undecodable)
  }

  /** `load_from_magnet`: the decoded metadata the mirrors hold for the
      link's info hash. */
  function MagnetContents(uri: string, env: Env): Result<BValue>
  {
    match MagnetInfoHash(uri)
    case Err(e) => Err(e)
    case Ok(h) =>
      match Fetched(MirrorUrls(h), env.get)
      case Err(e) => Err(e)
      case Ok(body) =>
        match env.decode(body)
        case Some(contents) => Ok(contents)
        case None => Err(Undecodable)
  }

  /** `load_from_uri`: the contents a URI designates. */
  function UriContents(uri: string, env: Env): Result<BValue>
  {
    if StartsWith(uri, "magnet:?") then MagnetContents(uri, env)
    else if uri !in env.files then Err(NotFound)
    else PathContents(uri, env)
  }

  /** Loading from contents that could be obtained. */
  function LoadFrom(s: Fields, contents: Result<BValue>, env: Env): Result<Fields>
  {
    match contents
    case Err(e) => Err(e)
    case Ok(c) => Load(s, c, env)
  }

  function OutcomeOf(r: Result<Fields>): Outcome
  {
    match r
    case Ok(_) => Pass
    case Err(e) => Fail(e)
  }

  // ------------------------------------------------------------------
  // What a load promises

  /** A load that succeeds leaves a positive total length, at least one
      file, a non-zero piece length, and the piece count rounded up from
      total length / piece length. */
  lemma LoadedIsComplete(s: Fields, contents: BValue, env: Env)
    requires Load(s, contents, env).Ok?
    ensures var t := Load(s, contents, env).value;
      t.totalLength > 0 && |t.fileNames| > 0 && t.pieceLength != 0 &&
      (t.pieceLength > 0 ==> (t.numberOfPieces - 1) * t.pieceLength < t.totalLength <= t.numberOfPieces * t.pieceLength) &&
      (t.pieceLength > 0 ==> t.numberOfPieces >= 1)
  {
    var t := Load(s, contents, env).value;
    if t.pieceLength > 0 {
      assert 0 < t.numberOfPieces * t.pieceLength;
      PositiveFactor(t.numberOfPieces, t.pieceLength);
    }
  }

  lemma PositiveFactor(n: int, d: int)
    requires d > 0 && n * d > 0
    ensures n >= 1
  {
    assert n <= 0 ==> n * d <= 0;
  }

  /** From a new object, a multi-file load lists each element of `files` once,
      in order, as its path joined under `name` with its length, and the
      total length is the sum of those lengths. */
  lemma FreshMultiFile(contents: BValue, env: Env, files: seq<BValue>)
    requires Load(Initial, contents, env).Ok?
    requires var info := contents.entries["info"];
      info.BDict? && "files" in info.entries && Elements(info.entries["files"]) == Ok(files)
    ensures var t := Load(Initial, contents, env).value;
      var root := RootOf(contents.entries["info"]).value;
      |t.fileNames| == |files| &&
      (forall i :: 0 <= i < |files| ==> EntryOf(root, files[i]) == Ok(t.fileNames[i])) &&
      t.totalLength == SumLengths(t.fileNames)
  {
    var info := contents.entries["info"];
    MultiFileEntries(info, files);
    assert [] + Added(LayoutOf(info).value) == Added(LayoutOf(info).value);
  }

  /** From a new object, a single-file load lists exactly the file `name`
      with its `length`, and that length is the total. */
  lemma FreshSingleFile(contents: BValue, env: Env)
    requires Load(Initial, contents, env).Ok?
    requires var info := contents.entries["info"]; info.BDict? && "files" !in info.entries
    ensures var t := Load(Initial, contents, env).value;
      var info := contents.entries["info"];
      t.fileNames == [FileEntry(info.entries["name"].s, info.entries["length"].n)] &&
      t.totalLength == info.entries["length"].n && t.totalLength > 0
  {
    var info := contents.entries["info"];
    assert [] + Added(LayoutOf(info).value) == Added(LayoutOf(info).value);
  }

  /** A link that starts with `magnet:?` always passes the scheme check: its
      hash is the first one its `xt` values yield. */
  lemma MagnetPrefixPassesScheme(uri: string)
    requires StartsWith(uri, "magnet:?")
    ensures MagnetInfoHash(uri) == HashOrError(FirstDecoded(XtValues(uri)))
  {
    MagnetPrefixScheme(uri);
  }

  /** A URI starting with `magnet:?` is loaded from the network whatever
      files exist; any other URI is loaded from its file, never from the
      network, and fails with NotFound when there is no such file. */
  lemma Dispatch(uri: string, env: Env, other: Env)
    ensures StartsWith(uri, "magnet:?") && other.get == env.get && other.decode == env.decode ==>
      UriContents(uri, env) == UriContents(uri, other) == MagnetContents(uri, env)
    ensures !StartsWith(uri, "magnet:?") && other.files == env.files && other.decode == env.decode ==>
      UriContents(uri, env) == UriContents(uri, other) == PathContents(uri, env)
    ensures !StartsWith(uri, "magnet:?") ==> (UriContents(uri, env) == Err(NotFound) <==> uri !in env.files)
  {
  }

  // ------------------------------------------------------------------
  // The object

  class Torrent {
    var torrentFile: BValue
    var totalLength: int
    var pieceLength: int
    var pieces: BValue
    var infoHash: seq<byte>
    var peerId: seq<byte>
    var announceList: BValue
    var fileNames: seq<FileEntry>
    var numberOfPieces: int

    function Snapshot(): Fields
      reads this
    {
      Fields(torrentFile, totalLength, pieceLength, pieces, infoHash, peerId, announceList, fileNames,
             numberOfPieces)
    }

    /** `__init__`: an empty description. */
    constructor ()
      ensures Snapshot() == Initial
    {
      torrentFile := BDict(map[]);
      totalLength := 0;
      pieceLength := 0;
      pieces := BInt(0);
      infoHash := [];
      peerId := [];
      announceList := BStr("");
      fileNames := [];
      numberOfPieces := 0;
    }

    /** `init_files`: appends the entries of the layout of `info` to
        `fileNames`; a multi-file layout adds its lengths to `totalLength`,
        a single-file layout sets it to the file's length. */
    method InitFiles() returns (o: Outcome)
      modifies this`fileNames, this`totalLength
      ensures InfoLayout(torrentFile).Ok? ==>
        o == Pass &&
        fileNames == old(fileNames) + Added(InfoLayout(torrentFile).value) &&
        totalLength == TotalAfter(old(totalLength), InfoLayout(torrentFile).value)
      ensures InfoLayout(torrentFile).Err? ==>
        o == Fail(InfoLayout(torrentFile).error) &&
        fileNames == old(fileNames) + InfoAddedUntilError(torrentFile) &&
        totalLength == old(totalLength) + SumLengths(InfoAddedUntilError(torrentFile))
    {
      var info := Field(torrentFile, "info");
      if info.Err? {
        return Fail(info.error);
      }
      var root := RootOf(info.value);
      if root.Err? {
        return Fail(root.error);
      }
      if info.value.BDict? && "files" in info.value.entries {
        var elements := Elements(info.value.entries["files"]);
        if elements.Err? {
          return Fail(elements.error);
        }
        o := AppendEntries(root.value, elements.value);
      } else {
        var length := Field(info.value, "length");
        if !(length.Ok? && length.value.BInt?) {
          return Fail(Malformed);
        }
        fileNames := fileNames + [FileEntry(root.value, length.value.n)];
        totalLength := length.value.n;
        return Pass;
      }
    }

    /** The loop of `init_files` over the elements of `files`: each entry is
        appended to `fileNames` and its length added to `totalLength`; the
        first element without an entry ends the loop with its error. */
    method AppendEntries(root: string, files: seq<BValue>) returns (o: Outcome)
      modifies this`fileNames, this`totalLength
      ensures EntriesOf(root, files).Ok? ==>
        o == Pass &&
        fileNames == old(fileNames) + EntriesOf(root, files).value &&
        totalLength == old(totalLength) + SumLengths(EntriesOf(root, files).value)
      ensures EntriesOf(root, files).Err? ==>
        o == Fail(EntriesOf(root, files).error) &&
        fileNames == old(fileNames) + Appended(root, files) &&
        totalLength == old(totalLength) + SumLengths(Appended(root, files))
    {
      var i := 0;
      assert files[..0] == [];
      while i < |files|
        invariant 0 <= i <= |files|
        invariant EntriesOf(root, files[..i]).Ok?
        invariant fileNames == old(fileNames) + EntriesOf(root, files[..i]).value
        invariant totalLength == old(totalLength) + SumLengths(EntriesOf(root, files[..i]).value)
      {
        var entry := EntryOf(root, files[i]);
        if entry.Err? {
          StopsAt(root, files, i);
          return Fail(entry.error);
        }
        EntriesOfNext(root, files, i);
        SumLengthsNext(EntriesOf(root, files[..i]).value, entry.value);
        fileNames := fileNames + [entry.value];
        totalLength := totalLength + entry.value.length;
        i := i + 1;
      }
      assert files[..|files|] == files;
      return Pass;
    }

    /** `_load_from_torrent_file`: the fields are set one after another from
        `contents`; the result is the one `Load` describes. */
    method LoadFromTorrentFile(contents: BValue, env: Env) returns (o: Outcome)
      modifies this
      ensures o == OutcomeOf(Load(old(Snapshot()), contents, env))
      ensures o.Pass? ==> Snapshot() == Load(old(Snapshot()), contents, env).value
    {
      torrentFile := contents;
      var info := Field(torrentFile, "info");
      if info.Err? {
        return Fail(info.error);
      }
      var pl := Field(info.value, "piece length");
      if pl.Err? {
        return Fail(pl.error);
      }
      if !pl.value.BInt? {
        return Fail(Malformed);
      }
      pieceLength := pl.value.n;
      var p := Field(info.value, "pieces");
      if p.Err? {
        return Fail(p.error);
      }
      pieces := p.value;
      infoHash := env.sha1(env.encode(info.value));
      peerId := PeerIdOf(env);
      var trackers := Trackers(torrentFile);
      if trackers.Err? {
        return Fail(trackers.error);
      }
      announceList := trackers.value;
      o := InitFiles();
      if o.Fail? {
        return o;
      }
      if pieceLength == 0 {
        return Fail(ZeroPieceLength);
      }
      numberOfPieces := CeilDiv(totalLength, pieceLength);
      if !(totalLength > 0) || !(|fileNames| > 0) {
        return Fail(InvalidLayout);
      }
      return Pass;
    }

    /** `load_from_path`: a missing file or bytes the decoder rejects end the
        load before any field changes. */
    method LoadFromPath(path: string, env: Env) returns (o: Outcome)
      modifies this
      ensures o == OutcomeOf(LoadFrom(old(Snapshot()), PathContents(path, env), env))
      ensures o.Pass? ==> Snapshot() == LoadFrom(old(Snapshot()), PathContents(path, env), env).value
      ensures PathContents(path, env).Err? ==> unchanged(this)
    {
      if path !in env.files {
        return Fail(NotFound);
      }
      var contents := env.decode(env.files[path]);
      if contents.None? {
        return Fail(Undecodable);
      }
      o := LoadFromTorrentFile(contents.value, env);
    }

    /** `load_from_magnet`: the info hash of the link, the metadata of the
        first mirror that has it, then the load; until the metadata is
        decoded no field changes. */
    method LoadFromMagnet(uri: string, env: Env) returns (o: Outcome)
      modifies this
      ensures o == OutcomeOf(LoadFrom(old(Snapshot()), MagnetContents(uri, env), env))
      ensures o.Pass? ==> Snapshot() == LoadFrom(old(Snapshot()), MagnetContents(uri, env), env).value
      ensures MagnetContents(uri, env).Err? ==> unchanged(this)
    {
      var h := ExtractInfoHash(uri);
      if h.Err? {
        return Fail(h.error);
      }
      var body, _ := DownloadTorrent(h.value, env.get);
      if body.Err? {
        return Fail(body.error);
      }
      var contents := env.decode(body.value);
      if contents.None? {
        return Fail(Undecodable);
      }
      o := LoadFromTorrentFile(contents.value, env);
    }

    /** `load_from_uri`: a `magnet:?` link is loaded from the mirrors, any
        other URI from the file it names, which must exist. */
    method LoadFromUri(uri: string, env: Env) returns (o: Outcome)
      modifies this
      ensures o == OutcomeOf(LoadFrom(old(Snapshot()), UriContents(uri, env), env))
      ensures o.Pass? ==> Snapshot() == LoadFrom(old(Snapshot()), UriContents(uri, env), env).value
      ensures UriContents(uri, env).Err? ==> unchanged(this)
    {
      if StartsWith(uri, "magnet:?") {
        o := LoadFromMagnet(uri, env);
        return;
      }
      if uri !in env.files {
        return Fail(NotFound);
      }
      o := LoadFromPath(uri, env);
    }
  }
}

=== FILE: types.dfy ===
/** Values shared by every part of the model: bytes, optional values, and the
    ways a load of torrent metadata can end without a result. */
module Types {

  newtype byte = b: int | 0 <= b < 256

  datatype Option<T> = None | Some(value: T)

  /** One constructor per kind of exception the loader lets escape, except
      the OverflowError of a piece count beyond the float range and the
      filesystem errors of directory creation and `open`, which are not
      modelled. */
  datatype Error =
    | InvalidMagnet        // ValueError: wrong scheme, or no usable `xt` value
    | MetadataUnavailable  // ConnectionError: every mirror failed
    | NotFound             // FileNotFoundError: the path is not a regular file
    | Undecodable          // the bencode decoder rejected the bytes
    | Malformed            // KeyError or TypeError: a field is missing or has the wrong shape
    | ZeroPieceLength      // ZeroDivisionError: `piece length` is 0
    | InvalidLayout        // AssertionError: total length not positive, or no file

  datatype Result<T> = Ok(value: T) | Err(error: Error)

  /** The end of an operation that returns nothing of interest. */
  datatype Outcome = Pass | Fail(error: Error)
}
